=== FILE: README.md ===
# A verified model of the chat bot's core

The bot answers Telegram messages with an LLM. Four pieces make up its core,
and this project models each one in Dafny and proves properties of it:

- **Function registry and answer cycle** (asyncgpt.py).
  - `register_function` turns annotated parameters into a JSON-schema
    descriptor.
  - `call_function_by_name` dispatches a function call by name.
  - `gen_answer` asks the provider. The result is the provider's text, a
    function's result returned as-is, or a second "followup" call.
  - `pack_message` builds one multimodal message.
  - The three built-ins: `clarify`, `set_memory` and `clear_memory`.
  - Modules `FunctionRegistry`, `Builtins`, `ChatEngine`.
- **Per-user conversation store** (db.py).
  - The directory of JSON files is a map from user id to
    `Record(settings, messages)`.
  - Modelled operations: `history_len`, `to_dict`/`from_dict`,
    `add_to_history`, the readers, `get_full_context`, and the three
    settings/history updates.
  - Module `ContextStore`.
- **Log-text helpers** (logger.py).
  - `slice_text`, with the fence split written as a scanner.
  - `escape_markdown`.
  - Modules `LogText` and `Escape`. `Escape` also serves the bot's
    `escape_characters`.
- **One turn of the bot** (bot.py).
  - The catch-all `handle_message` and the `/start` command, as functions
    from a store and an incoming message to an outcome, the provider requests
    made, and the new store.
  - Module `Bot`.

Everything outside the program is a parameter:

- The provider: `Env.provider`, a function from request to reply.
- `eval` of argument text: `Env.evaluate`, which returns `None` when it raises.
- `json.dumps`: `Env.dumps`.
- Telegram: `Platform` holds the bot's id, the file-download token, and
  which texts Telegram accepts as a MarkdownV2 reply and as a plain reply.
- Python's truthiness of an optional string is `Basics.Truthy`.

The handlers follow the program as written. Where the code does something
other than its evident intent, both versions are modelled; see
"## Findings". The handlers use the as-written engine and
store. Two lemmas say when the corrected versions give the same result:

- `ChatEngine.SingleCallWithoutFollowup`: the two engines agree for a pool
  with no followup function, which is the case for the built-in pool
  (`Builtins.BuiltinsRegistered`).
- `Bot.ExchangeAppendsTwo`: the two stores agree while the history stays
  within the token budget.

## Model

| member | source | states |
|---|---|---|
| `Escape.ReplaceChar` | logger.py:76 | one `str.replace(c, "\\" + c)`; the result is never shorter than the input. `Escape.ReplaceIsEscapeOnce` states what it computes |
| `Escape.EscapeSeq` | logger.py:75-76 | the loop `for char in chars: text = text.replace(char, "\\" + char)`, one replace per listed character in list order. It has no contract of its own: `Escape.EscapeSeqIsSinglePass`, `Escape.EscapeLength`, `Escape.UnescapeInverse` and `Escape.EscapeSeqAbsent` state its meaning |
| `Escape.ReplaceIsEscapeOnce` | logger.py:76 | a single replace equals the single-pass escape of the one-character set |
| `Escape.ReplaceThenEscape` | logger.py:75-76 | replacing `c` and then escaping the rest in one pass equals one pass over the rest plus `c`, provided neither `c` nor the backslash is in the rest |
| `Escape.EscapeSeqIsSinglePass` | logger.py:74-76 | the sequential replace loop equals single-pass escaping when the list has no repeated character and no backslash |
| `Escape.EscapeLength` | logger.py:73-77 | escaping adds exactly one character per listed character of the input |
| `Escape.UnescapeInverse` | logger.py:73-77 | removing each inserted backslash gives the original text back, provided the backslash is not listed |
| `Escape.EscapeSeqAbsent` | bot.py:22-25 | with none of the listed characters in the text, or an empty list, the loop returns the text unchanged |
| `Escape.DistinctConcat` | logger.py:74 | two repetition-free character lists with no common character join into a repetition-free list |
| `FunctionRegistry.Descriptors` | asyncgpt.py:89-93 | the `functions` list: each registered descriptor, in pool order. It has no contract of its own; `ChatEngine.GenAnswer` states that the first request offers exactly this list |
| `FunctionRegistry.Lookup` | asyncgpt.py:69-71 | `function_pool[name]`: the entry registered under the name, if any. It has no contract of its own; `FunctionRegistry.LookupFound` and `FunctionRegistry.Upsert` state it |
| `FunctionRegistry.LookupFound` | asyncgpt.py:69 | a name is found exactly when it is registered, and the entry found carries that name |
| `FunctionRegistry.Upsert` | asyncgpt.py:36-61 | the pool is keyed by function name: a new name is added at the end, an existing one is overwritten in place, and every other name keeps its entry |
| `FunctionRegistry.OneParam` | asyncgpt.py:22-54 | for a single parameter, both passes succeed exactly when the type table has a schema for its type; the property is that schema, with the given description or "Нет описания" |
| `FunctionRegistry.DescribeParams` | asyncgpt.py:18-57 | over a parameter list, registration succeeds exactly when every type has a schema; it then gives one property per parameter, in order |
| `FunctionRegistry.ParamsExcludeReturn` | asyncgpt.py:19-21 | the parameter names are the annotation names other than `return`; they contain no `return` and stay distinct |
| `FunctionRegistry.Describe` | asyncgpt.py:15-57 | the descriptor `register_function` builds, or the error it raises. It has no contract of its own; `FunctionRegistry.DescribeSpec` states it against the type table |
| `FunctionRegistry.DescribedAs` | asyncgpt.py:15-57 | a descriptor that agrees with the type table, parameter by parameter, with the given or default description and `required` in declaration order, is exactly the one registration builds |
| `FunctionRegistry.DescribeSpec` | asyncgpt.py:15-61 | the stored descriptor: success iff every type is in the table; the given or default description; `required` lists every declared parameter once, in declaration order, never `return`; each property carries its type's schema (`str` is "string", `list[str]` is an array of "string", `list[T]` an array of `T`'s name, any other type its own name) |
| `FunctionRegistry.Register` | asyncgpt.py:10-65 | registration succeeds iff the descriptor can be built; the pool then maps the name to the new entry with the followup flag as given, other names are unaffected, and names stay distinct |
| `FunctionRegistry.CallFunctionByName` | asyncgpt.py:68-74 | an unknown name invokes nothing and yields the `{"error": "Function not found"}` dict alone, not a pair; a registered name yields `(followup, result)` of the stored callable, and missing arguments make the call raise |
| `FunctionRegistry.RegisterThenCall` | asyncgpt.py:68-72 | calling a just-registered name runs the registered callable with the registered followup flag |
| `FunctionRegistry.NoFollowupFromLookups` | asyncgpt.py:71 | a pool with distinct names, in which no name's lookup asks for a followup, has no followup entry at all |
| `FunctionRegistry.NoFollowupLookup` | asyncgpt.py:71 | in a pool without followup entries, no lookup returns a followup entry |
| `Builtins.Clarify` | asyncgpt.py:167-168 | `clarify(**args)` returns a `ClarifyQuestion` of the two arguments exactly when the keys are `question` and `options`, and raises otherwise |
| `Builtins.SetMemory` | asyncgpt.py:183-184 | `set_memory(**args)` returns `Memory(memory)` exactly when the only key is `memory` |
| `Builtins.ClearMemory` | asyncgpt.py:191-192 | `clear_memory()` returns `Memory(None)` exactly when no argument is given |
| `Builtins.ClarifyDescribed` | asyncgpt.py:159-168 | `clarify` is described by a string `question` and an array-of-string `options`, both required, with their given descriptions |
| `Builtins.SetMemoryDescribed` | asyncgpt.py:176-184 | `set_memory` is described by one required string parameter `memory` with its given description |
| `Builtins.ClearMemoryDescribed` | asyncgpt.py:187-192 | `clear_memory` is described with no properties and an empty `required` list |
| `Builtins.ClarifyStageOk` | asyncgpt.py:159-168 | the first decorator registers `clarify` alone, without followup |
| `Builtins.SetMemoryStageOk` | asyncgpt.py:176-184 | the second decorator adds `set_memory` after `clarify`, without followup, and leaves `clarify` alone |
| `Builtins.ClearMemoryStageOk` | asyncgpt.py:187-192 | the third decorator adds `clear_memory` last, without followup, and leaves every other name alone |
| `Builtins.BuiltinCallables` | asyncgpt.py:159-192 | the built-in pool holds the three names in source order; each dispatches to its own function, none asks for a followup, and each carries the descriptor its signature gives |
| `Builtins.ThreeEntriesNoFollowup` | asyncgpt.py:165-189 | a pool of the three built-in names, none of whose lookups asks for a followup, has no followup entry |
| `Builtins.BuiltinsRegistered` | asyncgpt.py:159-192 | registration of the built-ins succeeds; the pool has exactly the three names in order, none with followup; `clarify` has its two-parameter descriptor, `set_memory` its one-parameter descriptor, and `clear_memory` no required parameter |
| `Builtins.BuiltinResultsStructured` | asyncgpt.py:167-192 | a built-in that returns gives an action object (`ClarifyQuestion` or `Memory`), never plain data, although each is annotated `-> str` |
| `ChatEngine.ImagePartsFacts` | asyncgpt.py:138-141 | the image parts are low-detail, carry non-empty URLs, and keep exactly the non-`None`, non-empty URLs in order |
| `ChatEngine.PackMessage` | asyncgpt.py:134-142 | `pack_message` keeps the role and gives a multimodal message; `ChatEngine.PackedParts` states its parts |
| `ChatEngine.PackedParts` | asyncgpt.py:134-142 | one text part, first, exactly for non-empty text; then one low-detail image part per non-empty URL, in order; none when the URL list is `None`; every image part is low-detail |
| `ChatEngine.PromptMessages` | asyncgpt.py:84-85 | a bare string prompt becomes one user message; a context is used as is. It has no contract of its own; `ChatEngine.GenAnswer` states that the first request carries it |
| `ChatEngine.FirstRequest` | asyncgpt.py:89-101 | the first request: every registered descriptor with `function_call` "auto", or neither when the pool is empty. It has no contract of its own; `ChatEngine.GenAnswer` states the request shape |
| `ChatEngine.ParseArguments` | asyncgpt.py:145-146 | `get_args_from_response`: empty argument text gives `None`; otherwise `eval`, whose exception becomes an error. It has no contract of its own; `ChatEngine.FunctionResultAsIs` and `ChatEngine.FollowupAnswer` use it |
| `ChatEngine.RequestsCall` | asyncgpt.py:105-106 | `get_function_call` and its truthiness test: the first choice carries a function call with a non-empty name. It has no contract of its own; `ChatEngine.DirectAnswer` covers the replies without one, and `ChatEngine.FunctionResultAsIs`, `ChatEngine.FollowupAnswer` and `ChatEngine.UnknownFunctionFails` those with one |
| `ChatEngine.ContentValue` | asyncgpt.py:120-123 | `choices[0].message.content` as the answer, `None` when there is no text. It has no contract of its own; `ChatEngine.DirectAnswer` and `ChatEngine.FollowupAnswer` state which reply it is read from |
| `ChatEngine.FollowupRequest` | asyncgpt.py:112-119 | the second request: the first request's messages plus the assistant function-call turn and the function turn holding `json.dumps(result)`, with no functions offered. It has no contract of its own; `ChatEngine.FollowupAnswer` and `ChatEngine.GenAnswer` state it |
| `ChatEngine.FirstStage` | asyncgpt.py:95-110 | up to the followup decision there is one request, carrying the prompt; a followup is only pending for a registered followup function |
| `ChatEngine.GenAnswer` | asyncgpt.py:83-123 | corrected engine: one or two requests; the first carries the prompt (a bare string as one user message), with all descriptors and "auto", or neither when the pool is empty; a second only for a followup function, extending the first request's messages by exactly the two synthetic turns and offering no functions |
| `ChatEngine.GenAnswerAsWritten` | asyncgpt.py:83-123 | as-written engine: exactly one request, carrying the prompt |
| `ChatEngine.DirectAnswer` | asyncgpt.py:122-123 | with no function call requested, the answer is the first choice's content after one request |
| `ChatEngine.FunctionResultAsIs` | asyncgpt.py:105-110 | a first reply that calls a registered function without followup, whatever text it also carries, returns that function's result as-is after one request |
| `ChatEngine.FollowupAnswer` | asyncgpt.py:112-120 | a first reply that calls a followup function returning plain data, whatever text it also carries, makes exactly two requests; the second request's messages are the prompt, then the assistant function-call turn, then the function turn holding `json.dumps(result)`; the answer is the second reply's content |
| `ChatEngine.UnknownFunctionFails` | asyncgpt.py:105-108 | a call naming an unregistered function fails after one request, because the error dict cannot be unpacked into a pair |
| `ChatEngine.SingleCallWithoutFollowup` | asyncgpt.py:106-110 | with no followup function registered the provider is asked exactly once, and the as-written engine agrees with the corrected one |
| `ChatEngine.FollowupAsWrittenRaises` | asyncgpt.py:112-116 | wherever the corrected engine makes its second request, the as-written engine has raised after the first |
| `ContextStore.HistoryLen` | db.py:18-27 | `history_len`, summed from the first message on. It has no contract of its own; `ContextStore.HistoryLenFormula` and `ContextStore.ComputeHistoryLen` state its value |
| `ContextStore.HistoryLenAppend` | db.py:18-27 | the token estimate of a concatenation is the sum of the estimates |
| `ContextStore.HistoryLenFormula` | db.py:18-27 | `history_len` is the sum of `len(text) // 4` (0 for a missing or empty text), plus 85 per message with a truthy image URL |
| `ContextStore.ComputeHistoryLen` | db.py:22-27 | the accumulating loop computes that sum |
| `ContextStore.ToDict` | db.py:36-41 | `Message.to_dict`, the three fields as JSON. It has no contract of its own; `ContextStore.DictRoundTrip` states that `from_dict` inverts it |
| `ContextStore.FromDict` | db.py:43-49 | a decoded message takes its role from the `role` field, and has a text or image URL exactly when the dict holds a string there |
| `ContextStore.DictRoundTrip` | db.py:36-49 | `from_dict(to_dict(m))` reproduces role, text and image URL exactly |
| `ContextStore.EvictCount` | db.py:70-71 | the intended eviction drops no more messages than there are, stops within budget or at three messages, and never goes below three once it starts |
| `ContextStore.Evict` | db.py:70-71 | the retained messages are a suffix of the history, not over budget, and at least three survive when there were that many |
| `ContextStore.EvictMinimal` | db.py:70-71 | every dropped message was dropped while the remaining history was still over budget |
| `ContextStore.EvictKeepsLast` | db.py:68-71 | eviction never drops the message just appended |
| `ContextStore.EvictKeeps` | db.py:70 | within budget, or with at most three messages, nothing is evicted |
| `ContextStore.EvictTwiceEnds` | db.py:68-71 | evicting after each of two appends keeps both appended messages, last and in order |
| `ContextStore.AppendEvictEnds` | db.py:68-71 | evicting after appending to a history that ends with `u` keeps `u` and then the new message |
| `ContextStore.LastTwo` | db.py:71 | a suffix of at least two messages ends with the last two messages of the whole |
| `ContextStore.AddToHistory` | db.py:56-74 | intended `add_to_history`: a missing record is created empty; the new message is appended and the oldest are evicted; settings and other users stay |
| `ContextStore.AddHistory` | db.py:68-71 | after the intended append, the history is a suffix of old history plus new message, ends with the new message, is within budget or down to three, and keeps three when there were three |
| `ContextStore.AddToHistoryAsWritten` | db.py:56-74 | as-written `add_to_history`: the record, created empty when missing, gets the message appended and nothing removed; other users stay |
| `ContextStore.EvictionNeverFiresAsWritten` | db.py:70 | twelve stored photos plus one more estimate 1105 tokens: the as-written store keeps all 13 over budget, the intended one drops the oldest |
| `ContextStore.AddAsWrittenHistory` | db.py:59-68 | as written, the history gains exactly the one new message at its end (from an empty one for a new user) and the settings stay |
| `ContextStore.GetSettings` | db.py:77-86 | `get_settings`: a user's settings, `None` without a record. It has no contract of its own; `ContextStore.SetThenGet` and `ContextStore.DropThenGet` state it against the updates |
| `ContextStore.GetHistory` | db.py:89-98 | `get_history`: a user's messages, empty without a record. It has no contract of its own; `ContextStore.AddHistory` and `ContextStore.AddAsWrittenHistory` state it against the appends |
| `ContextStore.SystemText` | db.py:105-108 | the system text: the default instruction, followed by the settings when they are non-empty. It has no contract of its own; `ContextStore.GetFullContext` states that it opens every context |
| `ContextStore.Replay` | db.py:110 | a stored message packed with its one image URL keeps its role and is a multimodal message; `ContextStore.ReplayedRoles` and `ChatEngine.PackedParts` state its parts |
| `ContextStore.HistoryMessagesAt` | db.py:109-110 | the replayed history holds each stored message at its own position, in stored order |
| `ContextStore.GetFullContext` | db.py:101-112 | the context has 1 + n messages: first a system message holding the default instruction, followed by the settings when they are non-empty; then each stored message packed with its one image URL, in stored order |
| `ContextStore.SetSettings` | db.py:115-122 | only an existing record gets the new settings; its messages, and every other user, are untouched |
| `ContextStore.DropSettings` | db.py:125-132 | only an existing record has its settings cleared; its messages and every other user are untouched |
| `ContextStore.DropHistory` | db.py:135-142 | only an existing record has its messages emptied; its settings and every other user are untouched |
| `ContextStore.SetThenGet` | db.py:77-86 | reading the settings back after `set_settings` gives them for a user with a record and `None` otherwise; the history is untouched |
| `ContextStore.DropThenGet` | db.py:125-132 | reading the settings after `drop_settings` gives `None`; the history is untouched |
| `ContextStore.DropHistoryContext` | db.py:135-142 | after `drop_history` the context is the system message alone, settings still in it |
| `ContextStore.ContextShape` | db.py:104-110 | the context is the system message followed by the replayed history |
| `ContextStore.ContextAfterAdd` | db.py:101-112 | after an intended append the context is the system message plus the replayed evicted history |
| `ContextStore.RecordContext` | db.py:101-112 | the context of a user whose record holds given settings and history is the system message for those settings followed by the replayed history |
| `ContextStore.AddThenContext` | db.py:101-112 | after an intended append the new message is the last of the context and the system message is still first |
| `ContextStore.ReplayedLast` | db.py:109-110 | the replayed history after an append ends with the appended message |
| `ContextStore.HistoryMessagesSnoc` | db.py:109-110 | replaying a history with a message added at the end gives the old replay plus that message |
| `ContextStore.AddThenContextNoEviction` | db.py:68-71 | within budget, the context grows by exactly the new message |
| `ContextStore.ContextAfterAppend` | db.py:101-112 | when the history gains one message and the settings stay, the context gains exactly that message |
| `ContextStore.SingleSystemMessage` | db.py:104-110 | with only user and assistant turns stored, the context holds exactly one system message, the first |
| `ContextStore.ReplayedRoles` | db.py:109-110 | replayed user and assistant turns are packed non-system messages |
| `ContextStore.TailRoles` | db.py:109-110 | the messages after the first are the replayed history, so none of them is a system message |
| `ContextStore.AddKeepsRoles` | db.py:68-71 | appending a user or assistant turn with eviction keeps every stored role user or assistant |
| `ContextStore.UpdateKeepsRoles` | db.py:68 | replacing one record by one with valid roles keeps the invariant |
| `ContextStore.EvictKeepsRoles` | db.py:70-71 | eviction keeps the role invariant |
| `ContextStore.AddAsWrittenKeepsRoles` | db.py:68 | the as-written append of a user or assistant turn keeps the role invariant |
| `ContextStore.CommandsKeepRoles` | db.py:115-142 | `set_settings`, `drop_settings` and `drop_history` keep the role invariant |
| `ContextStore.SnocKeepsRoles` | db.py:68 | a valid history plus a user or assistant turn is valid |
| `ContextStore.SuffixKeepsRoles` | db.py:71 | a suffix of a valid history is valid |
| `LogText.Chunks` | logger.py:37 | `[s[i:i+n] for i in range(0, len(s), n)]`: non-empty chunks of at most `n` characters, all but the last exactly `n`, joining back to `s`; none for the empty string |
| `LogText.WrapAll` | logger.py:33 | each chunk becomes "```python\n" + chunk + "```" |
| `LogText.UnwrapWrapAll` | logger.py:33 | unwrapping the re-wrapped chunks gives the chunks back |
| `LogText.FencedPieces` | logger.py:30-34 | every piece of a fenced block's content starts with "```python\n", ends with the fence, and holds between 1 and `length` characters of content; unwrapped and joined, the pieces give the content |
| `LogText.FindFence` | logger.py:25 | the first fence at or after a position; none means there is no later fence |
| `LogText.SplitFrom` | logger.py:25 | the split alternates text and fenced blocks (an odd number of blocks, odd positions fenced and at least six characters long) and joins back to the text |
| `LogText.SplitStep` | logger.py:25 | one step of the split, a text block plus a fenced block plus the rest, keeps those facts |
| `LogText.SplitFences` | logger.py:25 | `re.split(r'(```.*?```)', text, flags=re.DOTALL)` as a scan from the start. It has no contract of its own; `LogText.SplitFrom`, `LogText.SplitFencesJoin` and `LogText.SplitWithoutFence` state it |
| `LogText.SplitFencesJoin` | logger.py:25 | the blocks of the split join back to the text, and odd positions are fenced |
| `LogText.SplitWithoutFence` | logger.py:25 | text without a fence is one block |
| `LogText.BlockPieces` | logger.py:28-37 | one block's pieces, fenced or plain: each is non-empty and holds at most `length` characters plus the fences; `LogText.BlockPiecesJoin` states that they join back to the block |
| `LogText.Pieces` | logger.py:27-38 | the pieces of every block, in block order: each is non-empty and holds at most `length` characters plus the fences; `LogText.PiecesAppend` states the order |
| `LogText.PiecesAppend` | logger.py:27-39 | the pieces of each block stay together, in block order |
| `LogText.BlockPiecesJoin` | logger.py:29-37 | a plain block's pieces join back to it; a fenced block's pieces, unwrapped, join back to `block[3:-3]`; an empty block gives no piece |
| `LogText.SliceText` | logger.py:17-39 | a missing or empty text gives `[""]`; text that fits is returned whole; longer text becomes bounded non-empty pieces; text without fences is cut into chunks that join back to it |
| `LogText.SpecialsWellFormed` | logger.py:74 | the 17 listed characters are distinct and do not include the backslash |
| `LogText.EscapeMarkdown` | logger.py:73-77 | a backslash before every one of the 17 listed characters, other characters unchanged; the output is longer by the count of listed characters, and removing the backslashes restores the input |
| `Bot.EscapeCharacters` | bot.py:22-25 | text with none of the characters comes back unchanged; for distinct characters other than the backslash it is single-pass escaping |
| `Bot.EscapeSeqFacts` | bot.py:22-25 | the replace loop leaves text without the characters unchanged, and is a single pass for distinct characters other than the backslash |
| `Bot.ReplyEscape` | bot.py:174 | for `!.-` the escaped reply is longer by the number of those characters, and dropping each inserted backslash restores it |
| `Bot.IsIgnored` | bot.py:149-150 | a message is ignored when it has neither text nor photo, or comes from the bot. It has no contract of its own; `Bot.HandleMessage` states that exactly these turns change nothing |
| `Bot.UserText` | bot.py:154-161 | without a photo the user text is `message.text`; with a photo it is the caption when that is non-empty, and the text otherwise |
| `Bot.ImageUrl` | bot.py:154-159 | the image URL is set exactly when the message has a photo |
| `Bot.UserTurn` | bot.py:165 | the user's message packed with its text and its photo's URL. It has no contract of its own; `Bot.HandleMessage` states that it ends the first request, and `Bot.TurnHistory` that the same text and URL are stored |
| `Bot.TurnContext` | bot.py:163-165 | the stored context followed by the packed user message. It has no contract of its own; `Bot.HandleMessage` states that it is what the provider is asked about |
| `Bot.ReplyText` | bot.py:174 | only a plain string answer has text to escape |
| `Bot.ResponseOf` | bot.py:167-171 | a failed answer becomes the fixed apology; otherwise the reply is the answer's text, if any |
| `Bot.RecordExchange` | bot.py:179-180 | the two `add_to_history` calls, user turn then assistant turn. It has no contract of its own; `Bot.ExchangeAppends` states their effect |
| `Bot.Deliver` | bot.py:173-177 | the reply is sent when Telegram accepts it as escaped MarkdownV2 or as plain text, and not otherwise; an accepted MarkdownV2 text reads as the reply once the escapes are dropped; anything else sent is the raw reply |
| `Bot.ExchangeAppends` | bot.py:179-180 | the two appends add exactly the user turn (with its image URL) and then the assistant turn to the sender's history; settings and other users stay |
| `Bot.HandleMessage` | bot.py:145-168 | a message is ignored exactly when it has neither text nor photo or comes from the bot; an ignored message changes nothing and reaches no provider; otherwise the provider is asked once, about the stored context plus the packed user message |
| `Bot.Respond` | bot.py:167-177 | after the answer: the handler crashes exactly when there is no string reply or Telegram refuses the reply both ways; a reply is the apology for a failed answer and the answer's text otherwise, and it is sent as `Bot.Deliver` sends it |
| `Bot.RespondStore` | bot.py:173-180 | a crash stores nothing; a reply records the user turn and the assistant turn |
| `Bot.RespondSent` | bot.py:173-177 | the reply is sent escaped for MarkdownV2, or raw when Telegram refuses that |
| `Bot.Start` | bot.py:95-102 | `/start` asks the provider once, about the greeting alone; it replies exactly when the answer is a string that Telegram accepts as a plain reply, and anything else crashes it |
| `Bot.StartStore` | bot.py:97-102 | a crashed `/start` stores nothing; a replied one sends the answer unescaped and records the greeting and the answer |
| `Bot.StartRefusedStoresNothing` | bot.py:100-102 | a string answer Telegram refuses as a plain reply, an empty one for instance, crashes `/start` before either turn is stored |
| `Bot.TurnHistory` | bot.py:145-180 | a turn that replies appends exactly the user turn and then the assistant turn to the sender's history, keeping the settings and the other users; any other turn leaves the store as it was |
| `Bot.StartHistory` | bot.py:97-102 | a replied `/start` appends user "Привет" and then the assistant reply; otherwise nothing changes |
| `Bot.ApologyOnFailure` | bot.py:167-177 | when answering raises, the reply is the apology; it is sent exactly when Telegram accepts it one way or the other |
| `Bot.CrashCauses` | bot.py:167-177 | the handler crashes exactly when the answer succeeded with something other than a string, or when Telegram refuses the reply both as MarkdownV2 and as plain text |
| `Bot.FollowupApologizes` | bot.py:167-177 | a turn whose provider calls a followup function answers with the apology, because the engine raises; it is sent exactly when Telegram accepts it |
| `Bot.FollowupCrashesStart` | bot.py:97-100 | `/start` in the same situation crashes and stores nothing |
| `Bot.BuiltinResultCrashes` | bot.py:168-174 | whatever text the first reply also carries, a built-in's result reaches `escape_characters`, which has no string to escape: the handler crashes and stores nothing |
| `Bot.RenderedResponse` | bot.py:167-174 | the reply of the rendering handler agrees with the handler's reply wherever there is one, and renders a structured result otherwise |
| `Bot.HandleMessageRendering` | bot.py:145-180 | with structured results rendered, the only crash left is a reply Telegram refuses both ways, which stores nothing; each other turn is ignored exactly as before, or it replies as `Bot.Deliver` sends and records the exchange |
| `Bot.RenderingAgrees` | bot.py:145-180 | the rendering handler equals the as-written handler wherever that one does not crash |
| `Bot.BuiltinResultRendered` | bot.py:173-180 | where a built-in's result crashes the handler, whatever text the first reply also carries, the rendering handler replies with the rendered result exactly when Telegram accepts it, and then appends both turns |
| `Bot.TurnKeepsRoles` | bot.py:179-180 | a turn never stores a system message, so the next context still has exactly one |
| `Bot.StartKeepsRoles` | bot.py:101-102 | `/start` keeps the role invariant |
| `Bot.ExchangeKeepsRoles` | bot.py:179-180 | the two appends keep the role invariant |
| `Bot.RecordExchangeIntended` | bot.py:179-180 | the two appends over the evicting `add_to_history`. It has no contract of its own; `Bot.ExchangeIsLast`, `Bot.ExchangeHistory` and `Bot.ExchangeAppendsTwo` state its effect |
| `Bot.ExchangeIsLast` | db.py:68-71 | with the intended eviction, the history after a turn still ends with the user turn followed by the assistant turn |
| `Bot.ExchangeHistory` | db.py:68-71 | with the intended eviction, the history after a turn is the old history plus the user turn, evicted, plus the assistant turn, evicted |
| `Bot.ExchangeAppendsTwo` | db.py:70 | within budget the intended exchange leaves the same history as the as-written one |

## Left out

- Input and output: network, file and Telegram I/O (the OpenAI client, `asyncio.to_thread`, `aiofiles`, `os`, `get_path`, directory creation, `send_chat_action`, `get_file`). They become parameters or a map, because their effects are not the program's own logic.
- Concurrency: handlers run one at a time. The program's concurrent handlers could interleave the read-modify-write of one user's file; that is not modelled.
- `temperature`, the model name, and every `print`. This includes the `completion.usage` print at asyncgpt.py:103 and the decorator's print at asyncgpt.py:62. They have no effect on results; the float is not modelled.
- `eval` and `json.dumps` are the parameters `Env.evaluate` and `Env.dumps`; what they compute is library code.
- `FunctionRegistry.PyType`: an annotation is a class name or a subscripted generic. An annotation without `__name__`, on which asyncgpt.py:26 raises AttributeError, cannot be expressed. The `str(param_type)` fallback of asyncgpt.py:23 and 29 is therefore not modelled.
- `refine_name` (asyncgpt.py:125-131) is inside a string literal and never runs.
- The aiogram command handlers other than `/start`, the FSM state, the middleware, the error handler and creds loading. Their store operations are modelled (`ContextStore.SetSettings`, `ContextStore.DropSettings`, `ContextStore.DropHistory`, `ContextStore.GetSettings`), but not the Telegram replies around them.
- The photo's download path is an input (`Inbound.photoPath`); how Telegram chooses the largest photo is not modelled.
- `Bot.Respond`: a failed answer always becomes the apology. In the program `logger.err` at bot.py:170 posts to Telegram first and could itself raise; nothing would then be sent or stored. Logging is outside the model.
- Telegram's acceptance rules (MarkdownV2 parsing, the 4096-character limit, empty texts) are the parameters `Platform.acceptsMarkdown` and `Platform.acceptsPlain`. Errors of a send other than a refusal, such as a lost connection, are I/O and not modelled.
- `Bot.HandleMessageRendering`: `render` is an unspecified parameter. The program has no rendering of action objects, so the model fixes no text for them.
- `ContextStore.FromDict`: returns `None` for a dict whose `role` is missing or whose fields are not strings. db.py:44-49 is total: a missing key gives `None` as the value. The model's `Message` requires a string role.
- `LogText.SliceText`: requires `length > 0`. logger.py:33 and 37 raise ValueError for 0 (a zero `range` step) and return `[]` for negative lengths. The only caller, logger.py:87, uses the default 1990.
- `LogText.Chunks`: requires `n > 0`, for the same reason.
- `LogText.SliceText`: for text that contains fences it states the bound on each piece. The join property is stated per block, by `LogText.BlockPiecesJoin` and `LogText.SplitFencesJoin`, not for the whole result.
- The regular expression engine: `re.split(r'(```.*?```)', …, flags=re.DOTALL)` is modelled as a scanner. The scanner takes the first fence that has a later closing fence and the nearest such closing fence.
- `Logger.__init__`, `log`, `err`, the HTTP posting, the `singleton` decorator and `resource_path` are process-global I/O.

## Findings

| source | as written | input that shows it | evidently intended | confidence | as-written member | corrected member |
|---|---|---|---|---|---|---|
| asyncgpt.py:116 | The followup's assistant turn reads `completion.function_call`. The completion object has no such attribute; the call is on `choices[0].message`, where `get_function_call` (asyncgpt.py:150) reads it. So every followup raises AttributeError before the second request. | A pool with one function registered with `followup=True`, and a provider whose first reply calls it with arguments it accepts. | Build the assistant turn from `completion.choices[0].message.function_call`, then make the second request with the function's serialized result. | high, not executed | `ChatEngine.GenAnswerAsWritten`, `ChatEngine.FollowupAsWrittenRaises` | `ChatEngine.GenAnswer`, `ChatEngine.FollowupAnswer` |
| db.py:70 | The eviction guard tests `len(history)`, the number of keys of the record `{"settings", "messages"}`, which is 2. `2 > 3` is false, so the loop never runs and the history grows without bound. Were the guard true, `history.pop(0)` on the dict would raise KeyError. | A user with 12 stored photo messages sends one more. 13 × 85 = 1105 tokens is more than 1024, yet all 13 are kept. | `len(history["messages"]) > 3` with `history["messages"].pop(0)`: drop the oldest messages while over budget, keeping at least three. | high, not executed | `ContextStore.AddToHistoryAsWritten`, `ContextStore.EvictionNeverFiresAsWritten` | `ContextStore.AddToHistory`, `ContextStore.AddHistory`, `ContextStore.EvictMinimal` |
| bot.py:174 | A function result that `gen_answer` returns as-is goes straight to `escape_characters`. All three built-ins return `ClarifyQuestion` or `Memory` objects, though they are annotated `-> str`. These objects have no `replace`, so `escape_characters` raises AttributeError, which the `except TelegramBadRequest` at bot.py:175 does not catch; nothing is sent or stored. | A provider reply that calls `set_memory` with `{"memory": "x"}`: `gen_answer` returns `Memory("x")` and the handler crashes. | Turn the structured result into chat text before escaping, so that each such turn replies and is recorded. | medium, not executed | `Bot.HandleMessage`, `Bot.BuiltinResultCrashes` | `Bot.HandleMessageRendering`, `Bot.BuiltinResultRendered`, `Bot.RenderingAgrees` |

=== FILE: Basics.dfy ===
/** Shared value types: optional values, results with an error side, the JSON
    values the bot passes around, and string concatenation of a list. */
module Basics {

  /** Python's `None` versus a present value. */
  datatype Option<T> = None | Some(value: T)

  /** A computation that either produced a value or raised an error. */
  datatype Result<T, E> = Success(value: T) | Failure(error: E) {

    predicate IsFailure() {
      Failure?
    }

    function PropagateFailure<U>(): Result<U, E>
      requires Failure?
    {
      Failure(error)
    }

    function Extract(): T
      requires Success?
    {
      value
    }
  }

  /** Python truthiness of an optional string: present and non-empty. */
  predicate Truthy(s: Option<string>) {
    s.Some? && s.value != ""
  }

  /** JSON-shaped data: what `eval` yields for function arguments and what
      `json.dumps` accepts. Objects keep their key order, as Python dicts do. */
  datatype Json =
    | JNull
    | JBool(b: bool)
    | JInt(i: int)
    | JStr(s: string)
    | JArr(items: seq<Json>)
    | JObj(fields: seq<(string, Json)>)

  /** `"".join(parts)`. */
  function Flatten(parts: seq<string>): string {
    if |parts| == 0 then "" else parts[0] + Flatten(parts[1..])
  }

  lemma {:induction false} FlattenAppend(a: seq<string>, b: seq<string>)
    ensures Flatten(a + b) == Flatten(a) + Flatten(b)
  {
    if |a| == 0 {
      assert a + b == b;
    } else {
      assert (a + b)[1..] == a[1..] + b;
      FlattenAppend(a[1..], b);
    }
  }

  /** True when the character sequence `pat` occurs in `s` starting at `k`. */
  predicate OccursAt(s: string, pat: string, k: int) {
    0 <= k && k + |pat| <= |s| && s[k..k + |pat|] == pat
  }
}

=== FILE: BotTurn.dfy ===
/** The pure turn logic of bot.py: `escape_characters`, the catch-all
    `handle_message` handler and the `/start` command, over the store model.
    Telegram itself is reduced to the bot's id, its token and which replies it
    accepts. */
module Bot {
  import opened Basics
  import opened Escape
  import opened FunctionRegistry
  import opened ChatEngine
  import opened ContextStore
  import opened Builtins

  /** The characters escaped in every reply before it is sent as MarkdownV2. */
  const ReplySpecials := "!.-"
  const Apology := "Произошла неизвестная ошибка, попробуйте еще раз позже."
  const Greeting := "Привет"
  const FileBase := "https://api.telegram.org/file/bot"

  /** `escape_characters(text, characters)`: one `str.replace` per character.
      Text that holds none of the characters comes back unchanged; for distinct
      characters other than the backslash it is single-pass escaping. */
  function EscapeCharacters(text: string, characters: string): (r: string)
    ensures (forall i :: 0 <= i < |text| ==> text[i] !in characters) ==> r == text
    ensures Distinct(characters) && Backslash !in characters ==> r == EscapeOnce(text, CharSet(characters))
  {
    EscapeSeqFacts(text, characters);
    EscapeSeq(text, characters)
  }

  lemma EscapeSeqFacts(text: string, characters: string)
    ensures (forall i :: 0 <= i < |text| ==> text[i] !in characters) ==> EscapeSeq(text, characters) == text
    ensures Distinct(characters) && Backslash !in characters
            ==> EscapeSeq(text, characters) == EscapeOnce(text, CharSet(characters))
  {
    if forall i :: 0 <= i < |text| ==> text[i] !in characters {
      EscapeSeqAbsent(text, characters);
    }
    if Distinct(characters) && Backslash !in characters {
      EscapeSeqIsSinglePass(text, characters);
    }
  }

  /** For the reply set `!.-` the escaped reply is longer by the number of
      those characters, and dropping each inserted backslash restores it. */
  lemma ReplyEscape(text: string)
    ensures |EscapeCharacters(text, ReplySpecials)| == |text| + CountIn(text, CharSet(ReplySpecials))
    ensures Unescape(EscapeCharacters(text, ReplySpecials), CharSet(ReplySpecials)) == text
  {
    assert Distinct(ReplySpecials) && Backslash !in ReplySpecials;
    EscapeLength(text, CharSet(ReplySpecials));
    UnescapeInverse(text, CharSet(ReplySpecials));
  }

  /** An incoming message: the sender, its text and caption, and the file path
      Telegram reports for its largest photo when it has one. */
  datatype Inbound = Inbound(sender: UserId, text: Option<string>, caption: Option<string>, photoPath: Option<string>)

  /** The bot's id and token, and which texts Telegram accepts as a MarkdownV2
      reply and as a plain reply; it refuses a plain reply that is empty or
      longer than 4096 characters, for instance, with `TelegramBadRequest`. */
  datatype Platform = Platform(botId: UserId, token: string,
                               acceptsMarkdown: string -> bool, acceptsPlain: string -> bool)

  /** The handler returns at once for a message with neither text nor photo,
      and for the bot's own messages. */
  predicate IsIgnored(m: Inbound, botId: UserId) {
    (!Truthy(m.text) && m.photoPath.None?) || m.sender == botId
  }

  /** With a photo the caption replaces the text when it is non-empty. */
  function UserText(m: Inbound): (r: Option<string>)
    ensures m.photoPath.None? ==> r == m.text
    ensures m.photoPath.Some? ==> r == (if Truthy(m.caption) then m.caption else m.text)
  {
    if m.photoPath.Some? && Truthy(m.caption) then m.caption else m.text
  }

  /** The download URL of the photo; none without a photo. */
  function ImageUrl(m: Inbound, token: string): (r: Option<string>)
    ensures r.Some? <==> m.photoPath.Some?
  {
    if m.photoPath.Some? then Some(FileBase + token + "/" + m.photoPath.value) else None
  }

  function UserTurn(m: Inbound, token: string): ChatMessage {
    PackMessage(UserText(m), Some([ImageUrl(m, token)]), "user")
  }

  /** What the handler sends the provider: the stored context and the packed
      user message. */
  function TurnContext(store: Store, m: Inbound, token: string): seq<ChatMessage> {
    GetFullContext(store, m.sender) + [UserTurn(m, token)]
  }

  /** The text of a plain string answer; any other value has no `replace`. */
  function ReplyText(v: Value): (r: Option<string>)
    ensures r.Some? <==> v.Plain? && v.json.JStr?
  {
    if v.Plain? && v.json.JStr? then Some(v.json.s) else None
  }

  /** The reply for an answer: the apology when answering raised. */
  function ResponseOf(a: Answer): (r: Option<string>)
    ensures a.result.Failure? ==> r == Some(Apology)
    ensures a.result.Success? ==> r == ReplyText(a.result.value)
  {
    if a.result.Failure? then Some(Apology) else ReplyText(a.result.value)
  }

  datatype TurnOutcome =
    | Ignored
      /** The handler raised after answering: nothing is sent or stored. */
    | Crashed
      /** `response` was answered, sent as `sent`, and both turns stored. */
    | Replied(response: string, sent: string)

  datatype Turn = Turn(outcome: TurnOutcome, calls: seq<Request>, store: Store)

  /** The two `db.add_to_history` calls closing a turn: the user turn, then the
      assistant turn. */
  function RecordExchange(store: Store, uid: UserId, userText: Option<string>, imageUrl: Option<string>, response: string): Store {
    AddToHistoryAsWritten(AddToHistoryAsWritten(store, uid, "user", userText, imageUrl), uid, "assistant", Some(response), None)
  }

  /** The two sends of `handle_message`: the escaped reply as MarkdownV2, or
      the raw reply when Telegram refuses that. `None` when the raw reply is
      refused too, so that its error escapes the handler. What is sent reads
      as the reply itself once MarkdownV2 drops the escaping backslashes. */
  function Deliver(platform: Platform, response: string): (r: Option<string>)
    ensures var e := EscapeCharacters(response, ReplySpecials);
            r.Some? <==> platform.acceptsMarkdown(e) || platform.acceptsPlain(response)
    ensures platform.acceptsMarkdown(EscapeCharacters(response, ReplySpecials))
            ==> r.Some? && Unescape(r.value, CharSet(ReplySpecials)) == response
    ensures r.Some? && r.value != EscapeCharacters(response, ReplySpecials) ==> r.value == response
  {
    var escaped := EscapeCharacters(response, ReplySpecials);
    ReplyEscape(response);
    if platform.acceptsMarkdown(escaped) then Some(escaped)
    else if platform.acceptsPlain(response) then Some(response)
    else None
  }

  /** An exchange appends exactly the user turn and the assistant turn to the
      user's history and changes nothing else. */
  lemma ExchangeAppends(store: Store, uid: UserId, userText: Option<string>, imageUrl: Option<string>, response: string)
    ensures var r := RecordExchange(store, uid, userText, imageUrl, response);
            && GetHistory(r, uid)
               == GetHistory(store, uid) + [Message("user", userText, imageUrl), Message("assistant", Some(response), None)]
            && GetSettings(r, uid) == GetSettings(store, uid)
            && r.Keys == store.Keys + {uid}
            && forall u :: u in store && u != uid ==> r[u] == store[u]
  {
    var u := Message("user", userText, imageUrl);
    var a := Message("assistant", Some(response), None);
    var h := GetHistory(store, uid);
    AddAsWrittenHistory(store, uid, "user", userText, imageUrl);
    var s1 := AddToHistoryAsWritten(store, uid, "user", userText, imageUrl);
    AddAsWrittenHistory(s1, uid, "assistant", Some(response), None);
    assert (h + [u]) + [a] == h + [u, a];
  }

  /** `handle_message`: ignored messages change nothing and reach no provider;
      otherwise the provider is asked once, about the stored context plus the
      packed user message. */
  function HandleMessage(store: Store, pool: Pool, env: Env, platform: Platform, m: Inbound): (r: Turn)
    ensures r.outcome.Ignored? <==> IsIgnored(m, platform.botId)
    ensures r.outcome.Ignored? ==> r.calls == [] && r.store == store
    ensures !r.outcome.Ignored? ==> |r.calls| == 1 && r.calls[0].messages == TurnContext(store, m, platform.token)
  {
    if IsIgnored(m, platform.botId) then Turn(Ignored, [], store)
    else Respond(store, platform, m, GenAnswerAsWritten(pool, env, FromContext(TurnContext(store, m, platform.token))))
  }

  /** The handler after the answer: a failed answer becomes the apology, an
      answer that is not a string crashes `escape_characters`, a string that
      Telegram refuses both ways crashes the fallback send, and any other
      string is replied. */
  function Respond(store: Store, platform: Platform, m: Inbound, a: Answer): (r: Turn)
    ensures r.calls == a.calls && !r.outcome.Ignored?
    ensures r.outcome.Crashed? <==> ResponseOf(a).None? || Deliver(platform, ResponseOf(a).value).None?
    ensures r.outcome.Replied? ==>
              && r.outcome.response == ResponseOf(a).value
              && Deliver(platform, r.outcome.response) == Some(r.outcome.sent)
  {
    match ResponseOf(a)
    case None => Turn(Crashed, a.calls, store)
    case Some(response) =>
      match Deliver(platform, response)
      case None => Turn(Crashed, a.calls, store)
      case Some(sent) =>
        Turn(Replied(response, sent), a.calls,
             RecordExchange(store, m.sender, UserText(m), ImageUrl(m, platform.token), response))
  }

  /** A crash stores nothing; a reply records the exchange. */
  lemma RespondStore(store: Store, platform: Platform, m: Inbound, a: Answer)
    ensures var r := Respond(store, platform, m, a);
            && (r.outcome.Crashed? ==> r.store == store)
            && (r.outcome.Replied? ==>
                  r.store == RecordExchange(store, m.sender, UserText(m), ImageUrl(m, platform.token), r.outcome.response))
  {
  }

  /** The reply goes out escaped for MarkdownV2, or raw when Telegram refuses
      that. */
  lemma RespondSent(store: Store, platform: Platform, m: Inbound, a: Answer)
    ensures var r := Respond(store, platform, m, a);
            r.outcome.Replied? ==>
              var e := EscapeCharacters(r.outcome.response, ReplySpecials);
              (platform.acceptsMarkdown(e) ==> r.outcome.sent == e)
              && (!platform.acceptsMarkdown(e) ==> r.outcome.sent == r.outcome.response)
  {
  }

  /** `/start`: the provider is asked once about the greeting alone, and the
      answer is sent as plain text with no `try` around it. Anything but a
      string answer (an exception, a structured result) crashes, and so does a
      string Telegram refuses. */
  function Start(store: Store, pool: Pool, env: Env, platform: Platform, uid: UserId): (r: Turn)
    ensures |r.calls| == 1 && r.calls[0].messages == [Raw("user", Greeting)]
    ensures !r.outcome.Ignored?
    ensures var a := GenAnswerAsWritten(pool, env, FromText(Greeting));
            r.outcome.Replied? <==> a.result.Success? && ReplyText(a.result.value).Some?
                                    && platform.acceptsPlain(ReplyText(a.result.value).value)
  {
    var a := GenAnswerAsWritten(pool, env, FromText(Greeting));
    match a.result
    case Success(v) =>
      (match ReplyText(v)
       case Some(s) =>
         if platform.acceptsPlain(s) then Turn(Replied(s, s), a.calls, RecordExchange(store, uid, Some(Greeting), None, s))
         else Turn(Crashed, a.calls, store)
       case None => Turn(Crashed, a.calls, store))
    case Failure(_) => Turn(Crashed, a.calls, store)
  }

  /** A crashed `/start` stores nothing; a replied one sends the answer as is
      and appends the greeting turn and the answer turn. */
  lemma StartStore(store: Store, pool: Pool, env: Env, platform: Platform, uid: UserId)
    ensures var r := Start(store, pool, env, platform, uid);
            && (r.outcome.Crashed? ==> r.store == store)
            && (r.outcome.Replied? ==>
                  && r.outcome.sent == r.outcome.response
                  && r.store == RecordExchange(store, uid, Some(Greeting), None, r.outcome.response))
  {
  }

  /** A string answer that Telegram refuses as a plain reply, an empty one for
      instance, crashes `/start` before either turn is stored. */
  lemma StartRefusedStoresNothing(store: Store, pool: Pool, env: Env, platform: Platform, uid: UserId)
    requires var a := GenAnswerAsWritten(pool, env, FromText(Greeting));
             a.result.Success? && ReplyText(a.result.value).Some?
             && !platform.acceptsPlain(ReplyText(a.result.value).value)
    ensures Start(store, pool, env, platform, uid).outcome.Crashed?
    ensures Start(store, pool, env, platform, uid).store == store
  {
    StartStore(store, pool, env, platform, uid);
  }

  // ------------------------------------------------------------------ lemmas

  /** Every turn that replies appends exactly the user turn and the assistant
      turn to the sender's history, keeping the settings and the other users;
      any other turn leaves the store as it was. */
  lemma TurnHistory(store: Store, pool: Pool, env: Env, platform: Platform, m: Inbound)
    ensures var r := HandleMessage(store, pool, env, platform, m);
            && (!r.outcome.Replied? ==> r.store == store)
            && (r.outcome.Replied? ==>
                  && GetHistory(r.store, m.sender)
                     == GetHistory(store, m.sender)
                        + [Message("user", UserText(m), ImageUrl(m, platform.token)),
                           Message("assistant", Some(r.outcome.response), None)]
                  && GetSettings(r.store, m.sender) == GetSettings(store, m.sender)
                  && forall u :: u in store && u != m.sender ==> u in r.store && r.store[u] == store[u])
  {
    if !IsIgnored(m, platform.botId) {
      var a := GenAnswerAsWritten(pool, env, FromContext(TurnContext(store, m, platform.token)));
      RespondStore(store, platform, m, a);
      var r := Respond(store, platform, m, a);
      if r.outcome.Replied? {
        ExchangeAppends(store, m.sender, UserText(m), ImageUrl(m, platform.token), r.outcome.response);
      }
    }
  }

  /** The same for `/start`, with the greeting as the user turn. */
  lemma StartHistory(store: Store, pool: Pool, env: Env, platform: Platform, uid: UserId)
    ensures var r := Start(store, pool, env, platform, uid);
            && (!r.outcome.Replied? ==> r.store == store)
            && (r.outcome.Replied? ==>
                  GetHistory(r.store, uid)
                  == GetHistory(store, uid)
                     + [Message("user", Some(Greeting), None), Message("assistant", Some(r.outcome.response), None)])
  {
    StartStore(store, pool, env, platform, uid);
    var r := Start(store, pool, env, platform, uid);
    if r.outcome.Replied? {
      ExchangeAppends(store, uid, Some(Greeting), None, r.outcome.response);
    }
  }

  /** A failed answer is never silent: the handler replies with the apology,
      unless Telegram refuses even that. */
  lemma ApologyOnFailure(store: Store, pool: Pool, env: Env, platform: Platform, m: Inbound)
    requires !IsIgnored(m, platform.botId)
    requires GenAnswerAsWritten(pool, env, FromContext(TurnContext(store, m, platform.token))).result.Failure?
    ensures var r := HandleMessage(store, pool, env, platform, m);
            && (r.outcome.Replied? <==> Deliver(platform, Apology).Some?)
            && (r.outcome.Replied? ==> r.outcome.response == Apology)
  {
  }

  /** The handler crashes exactly when the answer succeeded with something
      other than a string, or when Telegram refuses the reply both ways. */
  lemma CrashCauses(store: Store, pool: Pool, env: Env, platform: Platform, m: Inbound)
    requires !IsIgnored(m, platform.botId)
    ensures var a := GenAnswerAsWritten(pool, env, FromContext(TurnContext(store, m, platform.token)));
            HandleMessage(store, pool, env, platform, m).outcome.Crashed?
            <==> (a.result.Success? && ReplyText(a.result.value).None?)
                 || (ResponseOf(a).Some? && Deliver(platform, ResponseOf(a).value).None?)
  {
  }

  /** With the followup defect, a turn whose provider asks for a followup
      function answers with the apology, and `/start` crashes. */
  lemma FollowupApologizes(store: Store, pool: Pool, env: Env, platform: Platform, m: Inbound)
    requires !IsIgnored(m, platform.botId)
    requires FirstStage(pool, env, FromContext(TurnContext(store, m, platform.token))).NeedsFollowup?
    ensures var r := HandleMessage(store, pool, env, platform, m);
            && (r.outcome.Replied? <==> Deliver(platform, Apology).Some?)
            && (r.outcome.Replied? ==> r.outcome.response == Apology)
  {
  }

  lemma FollowupCrashesStart(store: Store, pool: Pool, env: Env, platform: Platform, uid: UserId)
    requires FirstStage(pool, env, FromText(Greeting)).NeedsFollowup?
    ensures Start(store, pool, env, platform, uid).outcome.Crashed?
    ensures Start(store, pool, env, platform, uid).store == store
  {
  }

  // -------------------------------------------------- structured results

  /** A built-in's result reaches `escape_characters`, which has no string to
      escape: the handler crashes and stores nothing. */
  lemma BuiltinResultCrashes(store: Store, pool: Pool, env: Env, platform: Platform, m: Inbound, call: FunctionCall, args: Args)
    requires BuiltinPool() == Success(pool)
    requires !IsIgnored(m, platform.botId)
    requires call.name != ""
    requires env.provider(FirstRequest(pool, TurnContext(store, m, platform.token))).Answered?
    requires env.provider(FirstRequest(pool, TurnContext(store, m, platform.token))).response.functionCall == Some(call)
    requires ParseArguments(env, call.arguments) == Success(Some(args))
    requires Lookup(pool, call.name).Some? && Lookup(pool, call.name).value.callable(args).Returned?
    ensures HandleMessage(store, pool, env, platform, m).outcome.Crashed?
    ensures HandleMessage(store, pool, env, platform, m).store == store
  {
    var prompt := FromContext(TurnContext(store, m, platform.token));
    var v := Lookup(pool, call.name).value.callable(args).value;
    BuiltinsRegistered();
    BuiltinResultsStructured(pool, call.name, args);
    NoFollowupLookup(pool, call.name);
    FunctionResultAsIs(pool, env, prompt, call, args, v);
    SingleCallWithoutFollowup(pool, env, prompt);
    RespondStore(store, platform, m, GenAnswerAsWritten(pool, env, prompt));
  }

  /** The reply of the handler that renders a structured result with `render`
      instead of handing it to `escape_characters`. */
  function RenderedResponse(a: Answer, render: Value -> string): (r: string)
    ensures ResponseOf(a).Some? ==> r == ResponseOf(a).value
    ensures a.result.Success? && ReplyText(a.result.value).None? ==> r == render(a.result.value)
  {
    if a.result.Failure? then Apology
    else match ReplyText(a.result.value)
      case Some(s) => s
      case None => render(a.result.value)
  }

  /** `handle_message` with structured results rendered for the chat: the
      only crash left is a reply Telegram refuses both ways, which stores
      nothing; every other turn that is not ignored replies and records the
      exchange. */
  function HandleMessageRendering(store: Store, pool: Pool, env: Env, platform: Platform, render: Value -> string, m: Inbound): (r: Turn)
    ensures r.outcome.Ignored? <==> IsIgnored(m, platform.botId)
    ensures r.outcome.Ignored? ==> r.calls == [] && r.store == store
    ensures !IsIgnored(m, platform.botId) ==>
              var a := GenAnswerAsWritten(pool, env, FromContext(TurnContext(store, m, platform.token)));
              r.outcome.Crashed? <==> Deliver(platform, RenderedResponse(a, render)).None?
    ensures r.outcome.Crashed? ==> r.store == store
    ensures r.outcome.Replied? ==>
              && Deliver(platform, r.outcome.response) == Some(r.outcome.sent)
              && r.store == RecordExchange(store, m.sender, UserText(m), ImageUrl(m, platform.token), r.outcome.response)
  {
    if IsIgnored(m, platform.botId) then Turn(Ignored, [], store)
    else
      var a := GenAnswerAsWritten(pool, env, FromContext(TurnContext(store, m, platform.token)));
      var response := RenderedResponse(a, render);
      match Deliver(platform, response)
      case None => Turn(Crashed, a.calls, store)
      case Some(sent) =>
        Turn(Replied(response, sent), a.calls,
             RecordExchange(store, m.sender, UserText(m), ImageUrl(m, platform.token), response))
  }

  /** The rendering handler agrees with the handler wherever that one does
      not crash. */
  lemma RenderingAgrees(store: Store, pool: Pool, env: Env, platform: Platform, render: Value -> string, m: Inbound)
    requires !HandleMessage(store, pool, env, platform, m).outcome.Crashed?
    ensures HandleMessageRendering(store, pool, env, platform, render, m) == HandleMessage(store, pool, env, platform, m)
  {
    if !IsIgnored(m, platform.botId) {
      var a := GenAnswerAsWritten(pool, env, FromContext(TurnContext(store, m, platform.token)));
      RespondStore(store, platform, m, a);
    }
  }

  /** Where a built-in's result crashes the handler, the rendering handler
      replies with the rendered result, when Telegram accepts it, and appends
      both turns. */
  lemma BuiltinResultRendered(store: Store, pool: Pool, env: Env, platform: Platform, render: Value -> string, m: Inbound, call: FunctionCall, args: Args)
    requires BuiltinPool() == Success(pool)
    requires !IsIgnored(m, platform.botId)
    requires call.name != ""
    requires env.provider(FirstRequest(pool, TurnContext(store, m, platform.token))).Answered?
    requires env.provider(FirstRequest(pool, TurnContext(store, m, platform.token))).response.functionCall == Some(call)
    requires ParseArguments(env, call.arguments) == Success(Some(args))
    requires Lookup(pool, call.name).Some? && Lookup(pool, call.name).value.callable(args).Returned?
    ensures var r := HandleMessageRendering(store, pool, env, platform, render, m);
            var v := Lookup(pool, call.name).value.callable(args).value;
            && (r.outcome.Replied? <==> Deliver(platform, render(v)).Some?)
            && (r.outcome.Replied? ==>
                  && r.outcome.response == render(v)
                  && GetHistory(r.store, m.sender)
                     == GetHistory(store, m.sender)
                        + [Message("user", UserText(m), ImageUrl(m, platform.token)),
                           Message("assistant", Some(r.outcome.response), None)])
  {
    var prompt := FromContext(TurnContext(store, m, platform.token));
    var v := Lookup(pool, call.name).value.callable(args).value;
    BuiltinsRegistered();
    BuiltinResultsStructured(pool, call.name, args);
    NoFollowupLookup(pool, call.name);
    FunctionResultAsIs(pool, env, prompt, call, args, v);
    SingleCallWithoutFollowup(pool, env, prompt);
    var r := HandleMessageRendering(store, pool, env, platform, render, m);
    if r.outcome.Replied? {
      ExchangeAppends(store, m.sender, UserText(m), ImageUrl(m, platform.token), r.outcome.response);
    }
  }

  // ------------------------------------------------------------- roles

  /** A turn never stores a system message, so the next context still has
      exactly one. */
  lemma TurnKeepsRoles(store: Store, pool: Pool, env: Env, platform: Platform, m: Inbound)
    requires RolesValid(store)
    ensures RolesValid(HandleMessage(store, pool, env, platform, m).store)
  {
    TurnHistory(store, pool, env, platform, m);
    var r := HandleMessage(store, pool, env, platform, m);
    if r.outcome.Replied? {
      RespondStore(store, platform, m, GenAnswerAsWritten(pool, env, FromContext(TurnContext(store, m, platform.token))));
      ExchangeKeepsRoles(store, m.sender, UserText(m), ImageUrl(m, platform.token), r.outcome.response);
    }
  }

  lemma StartKeepsRoles(store: Store, pool: Pool, env: Env, platform: Platform, uid: UserId)
    requires RolesValid(store)
    ensures RolesValid(Start(store, pool, env, platform, uid).store)
  {
    StartStore(store, pool, env, platform, uid);
    var r := Start(store, pool, env, platform, uid);
    if r.outcome.Replied? {
      ExchangeKeepsRoles(store, uid, Some(Greeting), None, r.outcome.response);
    }
  }

  lemma ExchangeKeepsRoles(store: Store, uid: UserId, userText: Option<string>, imageUrl: Option<string>, response: string)
    requires RolesValid(store)
    ensures RolesValid(RecordExchange(store, uid, userText, imageUrl, response))
  {
    AddAsWrittenKeepsRoles(store, uid, "user", userText, imageUrl);
    AddAsWrittenKeepsRoles(AddToHistoryAsWritten(store, uid, "user", userText, imageUrl), uid, "assistant", Some(response), None);
  }

  // ------------------------------------------------ with intended eviction

  /** The exchange over the evicting `add_to_history`. */
  function RecordExchangeIntended(store: Store, uid: UserId, userText: Option<string>, imageUrl: Option<string>, response: string): Store {
    AddToHistory(AddToHistory(store, uid, "user", userText, imageUrl), uid, "assistant", Some(response), None)
  }

  /** With eviction the history still ends with the user turn followed by the
      assistant turn, whatever was dropped. */
  lemma ExchangeIsLast(store: Store, uid: UserId, userText: Option<string>, imageUrl: Option<string>, response: string)
    ensures var h := GetHistory(RecordExchangeIntended(store, uid, userText, imageUrl, response), uid);
            && |h| >= 2
            && h[|h| - 2] == Message("user", userText, imageUrl)
            && h[|h| - 1] == Message("assistant", Some(response), None)
  {
    var u := Message("user", userText, imageUrl);
    var a := Message("assistant", Some(response), None);
    ExchangeHistory(store, uid, userText, imageUrl, response);
    EvictTwiceEnds(GetHistory(store, uid), u, a);
  }

  /** The history after an exchange, as a sequence computation. */
  lemma ExchangeHistory(store: Store, uid: UserId, userText: Option<string>, imageUrl: Option<string>, response: string)
    ensures GetHistory(RecordExchangeIntended(store, uid, userText, imageUrl, response), uid)
            == Evict(Evict(GetHistory(store, uid) + [Message("user", userText, imageUrl)])
                     + [Message("assistant", Some(response), None)])
  {
    var s1 := AddToHistory(store, uid, "user", userText, imageUrl);
    assert GetHistory(s1, uid) == Evict(GetHistory(store, uid) + [Message("user", userText, imageUrl)]);
  }

  /** Within budget the evicting exchange appends exactly the two turns, as
      the as-written one always does. */
  lemma ExchangeAppendsTwo(store: Store, uid: UserId, userText: Option<string>, imageUrl: Option<string>, response: string)
    requires var u := Message("user", userText, imageUrl);
             var a := Message("assistant", Some(response), None);
             HistoryLen(GetHistory(store, uid) + [u, a]) <= MaxHistoryLen
    ensures GetHistory(RecordExchangeIntended(store, uid, userText, imageUrl, response), uid)
            == GetHistory(RecordExchange(store, uid, userText, imageUrl, response), uid)
  {
    var u := Message("user", userText, imageUrl);
    var a := Message("assistant", Some(response), None);
    var h := GetHistory(store, uid);
    assert h + [u, a] == (h + [u]) + [a];
    HistoryLenAppend(h + [u], [a]);
    EvictKeeps(h + [u]);
    var s1 := AddToHistory(store, uid, "user", userText, imageUrl);
    assert GetHistory(s1, uid) == h + [u];
    EvictKeeps(h + [u, a]);
    var s2 := AddToHistory(s1, uid, "assistant", Some(response), None);
    assert GetHistory(s2, uid) == Evict(h + [u, a]);
    ExchangeAppends(store, uid, userText, imageUrl, response);
  }
}

=== FILE: Builtins.dfy ===
/** The three functions asyncgpt.py registers at import time: `clarify`,
    `set_memory` and `clear_memory`, all without a followup call. */
module Builtins {
  import opened Basics
  import opened FunctionRegistry

  /** `clarify(question, options)`: Python binds keyword arguments exactly, so
      any missing or extra key raises. */
  function Clarify(args: Args): (r: CallOutcome)
    ensures r.Returned? <==> args.Keys == {"question", "options"}
    ensures r.Returned? ==> r.value == ClarifyQuestion(args["question"], args["options"])
  {
    if args.Keys == {"question", "options"} then Returned(ClarifyQuestion(args["question"], args["options"])) else Raised
  }

  function SetMemory(args: Args): (r: CallOutcome)
    ensures r.Returned? <==> args.Keys == {"memory"}
    ensures r.Returned? ==> r.value == Memory(args["memory"])
  {
    if args.Keys == {"memory"} then Returned(Memory(args["memory"])) else Raised
  }

  /** `clear_memory()` returns `Memory(None)`. */
  function ClearMemory(args: Args): (r: CallOutcome)
    ensures r.Returned? <==> args == map[]
    ensures r.Returned? ==> r.value == Memory(JNull)
  {
    if args.Keys == {} then Returned(Memory(JNull)) else Raised
  }

  const StrType := Simple("str")

  const ClarifyAnnotations: seq<(string, PyType)> :=
    [("question", StrType), ("options", Generic("list", StrType)), ("return", StrType)]

  const SetMemoryAnnotations: seq<(string, PyType)> := [("memory", StrType), ("return", StrType)]

  const ClearMemoryAnnotations: seq<(string, PyType)> := [("return", StrType)]

  const ClarifyDescriptions := Some(map["question" := "Вопрос", "options" := "Варианты ответов"])

  const SetMemoryDescriptions := Some(map["memory" := "Информация о пользователе"])

  function ClarifyStage(): Result<Pool, RegistrationError> {
    Register([], "clarify", Some("Задать уточняющий вопрос"), ClarifyAnnotations, ClarifyDescriptions, false, Clarify)
  }

  function SetMemoryStage(p1: Pool): Result<Pool, RegistrationError>
    requires Unique(Names(p1))
  {
    Register(p1, "set_memory", Some("Задать информацию о пользователе (память)"), SetMemoryAnnotations,
             SetMemoryDescriptions, false, SetMemory)
  }

  function ClearMemoryStage(p2: Pool): Result<Pool, RegistrationError>
    requires Unique(Names(p2))
  {
    Register(p2, "clear_memory", Some("Очистить информацию о пользователе"), ClearMemoryAnnotations,
             None, false, ClearMemory)
  }

  /** The pool after the three decorators ran, in source order. */
  function BuiltinPool(): Result<Pool, RegistrationError> {
    var p1 :- ClarifyStage();
    var p2 :- SetMemoryStage(p1);
    ClearMemoryStage(p2)
  }

  const ClarifyDescriptor :=
    Descriptor("clarify", "Задать уточняющий вопрос",
               [Property("question", Scalar("string"), "Вопрос"),
                Property("options", Array("string"), "Варианты ответов")],
               ["question", "options"])

  lemma ClarifyDescribed()
    ensures Describe("clarify", Some("Задать уточняющий вопрос"), ClarifyAnnotations, ClarifyDescriptions)
            == Success(ClarifyDescriptor)
  {
    var ps := [("question", StrType), ("options", Generic("list", StrType))];
    var rest := ClarifyAnnotations[1..];
    assert rest[1..] == [("return", StrType)];
    assert Params(ClarifyAnnotations) == ps by {
      assert Params(rest[1..]) == [];
      assert Params(rest) == [ps[1]];
    }
    assert AnnotationNames(ClarifyAnnotations) == ["question", "options", "return"] by {
      assert AnnotationNames(rest[1..]) == ["return"];
    }
    assert ParamNames(ps) == ["question", "options"] by {
      assert ParamNames(ps[1..]) == ["options"];
    }
    DescribedAs("clarify", Some("Задать уточняющий вопрос"), ClarifyAnnotations, ClarifyDescriptions, ClarifyDescriptor);
  }

  const SetMemoryDescriptor :=
    Descriptor("set_memory", "Задать информацию о пользователе (память)",
               [Property("memory", Scalar("string"), "Информация о пользователе")], ["memory"])

  lemma SetMemoryDescribed()
    ensures Describe("set_memory", Some("Задать информацию о пользователе (память)"), SetMemoryAnnotations,
                     SetMemoryDescriptions) == Success(SetMemoryDescriptor)
  {
    var ps := [("memory", StrType)];
    assert SetMemoryAnnotations[1..] == [("return", StrType)];
    assert Params(SetMemoryAnnotations) == ps by {
      assert Params(SetMemoryAnnotations[1..]) == [];
    }
    assert AnnotationNames(SetMemoryAnnotations) == ["memory", "return"] by {
      assert AnnotationNames(SetMemoryAnnotations[1..]) == ["return"];
    }
    assert ParamNames(ps) == ["memory"];
    DescribedAs("set_memory", Some("Задать информацию о пользователе (память)"), SetMemoryAnnotations,
                SetMemoryDescriptions, SetMemoryDescriptor);
  }

  lemma ClearMemoryDescribed()
    ensures Describe("clear_memory", Some("Очистить информацию о пользователе"), ClearMemoryAnnotations, None)
            == Success(Descriptor("clear_memory", "Очистить информацию о пользователе", [], []))
  {
    assert Params(ClearMemoryAnnotations) == [];
  }

  /** Registration succeeds for the built-ins; the pool holds exactly the three
      names in order, none with followup, `clarify` is described with a string
      `question` and a string-array `options`, both required, `set_memory`
      with one required string `memory`, and `clear_memory` has no
      parameters. */
  lemma BuiltinsRegistered()
    ensures BuiltinPool().Success?
    ensures Names(BuiltinPool().value) == ["clarify", "set_memory", "clear_memory"]
    ensures NoFollowup(BuiltinPool().value)
    ensures Lookup(BuiltinPool().value, "clarify").value.descriptor == ClarifyDescriptor
    ensures Lookup(BuiltinPool().value, "set_memory").value.descriptor == SetMemoryDescriptor
    ensures Lookup(BuiltinPool().value, "clear_memory").value.descriptor.required == []
  {
    BuiltinCallables();
    ThreeEntriesNoFollowup(BuiltinPool().value);
  }

  /** A pool of the three built-in names, none of whose lookups asks for a
      follow-up, asks for none anywhere. */
  lemma ThreeEntriesNoFollowup(pool: Pool)
    requires Names(pool) == ["clarify", "set_memory", "clear_memory"]
    requires Lookup(pool, "clarify").Some? && !Lookup(pool, "clarify").value.followup
    requires Lookup(pool, "set_memory").Some? && !Lookup(pool, "set_memory").value.followup
    requires Lookup(pool, "clear_memory").Some? && !Lookup(pool, "clear_memory").value.followup
    ensures NoFollowup(pool)
  {
    var names := ["clarify", "set_memory", "clear_memory"];
    assert Unique(names);
    forall n | n in Names(pool) ensures Lookup(pool, n).Some? && !Lookup(pool, n).value.followup {
      assert n == names[0] || n == names[1] || n == names[2];
    }
    NoFollowupFromLookups(pool);
  }

  lemma ClarifyStageOk()
    ensures ClarifyStage().Success?
    ensures Names(ClarifyStage().value) == ["clarify"]
    ensures Lookup(ClarifyStage().value, "clarify") == Some(Entry(ClarifyDescriptor, false, Clarify))
  {
    ClarifyDescribed();
    assert Unique([]);
  }

  lemma SetMemoryStageOk(p1: Pool)
    requires Names(p1) == ["clarify"]
    ensures Unique(Names(p1))
    ensures SetMemoryStage(p1).Success?
    ensures Names(SetMemoryStage(p1).value) == ["clarify", "set_memory"]
    ensures Lookup(SetMemoryStage(p1).value, "clarify") == Lookup(p1, "clarify")
    ensures Lookup(SetMemoryStage(p1).value, "set_memory") == Some(Entry(SetMemoryDescriptor, false, SetMemory))
  {
    SetMemoryDescribed();
  }

  lemma ClearMemoryStageOk(p2: Pool)
    requires Names(p2) == ["clarify", "set_memory"]
    ensures Unique(Names(p2))
    ensures ClearMemoryStage(p2).Success?
    ensures Names(ClearMemoryStage(p2).value) == ["clarify", "set_memory", "clear_memory"]
    ensures forall n :: n != "clear_memory" ==> Lookup(ClearMemoryStage(p2).value, n) == Lookup(p2, n)
    ensures Lookup(ClearMemoryStage(p2).value, "clear_memory")
            == Some(Entry(Descriptor("clear_memory", "Очистить информацию о пользователе", [], []), false, ClearMemory))
  {
    ClearMemoryDescribed();
  }

  /** Each built-in name dispatches to its own function, none asks for a
      follow-up, and each carries the descriptor its signature gives. */
  lemma BuiltinCallables()
    ensures BuiltinPool().Success?
    ensures var pool := BuiltinPool().value;
            && Names(pool) == ["clarify", "set_memory", "clear_memory"]
            && Lookup(pool, "clarify") == Some(Entry(ClarifyDescriptor, false, Clarify))
            && Lookup(pool, "set_memory") == Some(Entry(SetMemoryDescriptor, false, SetMemory))
            && Lookup(pool, "clear_memory")
               == Some(Entry(Descriptor("clear_memory", "Очистить информацию о пользователе", [], []), false, ClearMemory))
  {
    ClarifyStageOk();
    var p1 := ClarifyStage().value;
    SetMemoryStageOk(p1);
    var p2 := SetMemoryStage(p1).value;
    ClearMemoryStageOk(p2);
    var pool := ClearMemoryStage(p2).value;
    assert BuiltinPool() == ClearMemoryStage(p2);
    assert Lookup(pool, "clarify") == Lookup(p1, "clarify");
    assert Lookup(pool, "set_memory") == Lookup(p2, "set_memory");
  }

  /** A built-in that returns gives a structured result, never plain data. */
  lemma BuiltinResultsStructured(pool: Pool, name: string, args: Args)
    requires BuiltinPool() == Success(pool)
    requires Lookup(pool, name).Some? && Lookup(pool, name).value.callable(args).Returned?
    ensures !Lookup(pool, name).value.callable(args).value.Plain?
  {
    BuiltinCallables();
    LookupFound(pool, name);
    if name == "clarify" {
      assert Lookup(pool, name).value.callable(args) == Clarify(args);
    } else if name == "set_memory" {
      assert Lookup(pool, name).value.callable(args) == SetMemory(args);
    } else {
      assert name == "clear_memory";
      assert Lookup(pool, name).value.callable(args) == ClearMemory(args);
    }
  }
}

=== FILE: ChatEngine.dfy ===
/** One answer cycle of `OpenAIChatBot` in asyncgpt.py: build the request,
    ask the provider, and either return its text, return a function's result
    as-is, or ask the provider a second time with the function's result.
    The provider, `eval` of the argument text and `json.dumps` are inputs. */
module ChatEngine {
  import opened Basics
  import opened FunctionRegistry

  /** A content part of a packed message. */
  datatype Part = TextPart(text: string) | ImagePart(url: string, detail: string)

  /** The `function_call` of a provider message: a name and argument text. */
  datatype FunctionCall = FunctionCall(name: string, arguments: string)

  /** A message sent to the provider. `Packed` is what `pack_message` builds,
      `Raw` the `{"role": "user", "content": text}` wrapping of a bare string,
      and the last two are the synthetic turns of the followup call. */
  datatype ChatMessage =
    | Packed(role: string, parts: seq<Part>)
    | Raw(role: string, content: string)
    | FunctionCallTurn(call: FunctionCall)
    | FunctionResultTurn(name: string, content: string)

  /** `functions` and `function_call` are `None` where `gen_answer` passes NOT_GIVEN. */
  datatype Request = Request(messages: seq<ChatMessage>, functions: Option<seq<Descriptor>>, functionCall: Option<string>)

  /** The first choice's message. */
  datatype Response = Response(content: Option<string>, functionCall: Option<FunctionCall>)

  datatype Reply = Answered(response: Response) | Unavailable

  /** The collaborators: the provider, `eval` of argument text (None when it
      raises), and `json.dumps`. */
  datatype Env = Env(provider: Request -> Reply, evaluate: string -> Option<Args>, dumps: Json -> string)

  /** `gen_answer` accepts a message list or a bare string. */
  datatype Prompt = FromText(text: string) | FromContext(messages: seq<ChatMessage>)

  /** The exceptions that leave `gen_answer`. */
  datatype EngineError =
    | ProviderUnavailable   // the client call raised
    | MalformedArguments    // `eval` of the argument text raised
    | UnknownFunction       // the one-key error dict cannot be unpacked into two names
    | CallableRaised        // the registered function raised, or `func(**None)` for empty argument text
    | NotSerializable       // `json.dumps` of an action object
    | MissingAttribute      // `completion.function_call` does not exist

  /** The provider requests made, in order, and the outcome. */
  datatype Answer = Answer(calls: seq<Request>, result: Result<Value, EngineError>)

  const LowDetail := "low"

  // ---------------------------------------------------------------- pack_message

  /** The non-empty URLs, in order: the images `pack_message` attaches. */
  function KeptUrls(urls: seq<Option<string>>): seq<string> {
    if |urls| == 0 then []
    else (if Truthy(urls[0]) then [urls[0].value] else []) + KeptUrls(urls[1..])
  }

  /** The URLs of the image parts, in order. */
  function Urls(parts: seq<Part>): seq<string> {
    if |parts| == 0 then []
    else (if parts[0].ImagePart? then [parts[0].url] else []) + Urls(parts[1..])
  }

  /** The texts of the text parts, in order. */
  function Texts(parts: seq<Part>): seq<string> {
    if |parts| == 0 then []
    else (if parts[0].TextPart? then [parts[0].text] else []) + Texts(parts[1..])
  }

  /** Both projections distribute over concatenation. */
  lemma ProjectionsAppend(a: seq<Part>, b: seq<Part>)
    ensures Urls(a + b) == Urls(a) + Urls(b)
    ensures Texts(a + b) == Texts(a) + Texts(b)
  {
    UrlsAppend(a, b);
    TextsAppend(a, b);
  }

  lemma {:induction false} UrlsAppend(a: seq<Part>, b: seq<Part>)
    ensures Urls(a + b) == Urls(a) + Urls(b)
  {
    if |a| == 0 {
      assert a + b == b;
    } else {
      var ab := a + b;
      assert ab[0] == a[0];
      assert ab[1..] == a[1..] + b;
      UrlsAppend(a[1..], b);
      var head := if a[0].ImagePart? then [a[0].url] else [];
      assert Urls(ab) == head + Urls(ab[1..]);
      assert Urls(a) == head + Urls(a[1..]);
    }
  }

  lemma {:induction false} TextsAppend(a: seq<Part>, b: seq<Part>)
    ensures Texts(a + b) == Texts(a) + Texts(b)
  {
    if |a| == 0 {
      assert a + b == b;
    } else {
      var ab := a + b;
      assert ab[0] == a[0];
      assert ab[1..] == a[1..] + b;
      TextsAppend(a[1..], b);
      var head := if a[0].TextPart? then [a[0].text] else [];
      assert Texts(ab) == head + Texts(ab[1..]);
      assert Texts(a) == head + Texts(a[1..]);
    }
  }

  function ImageParts(urls: seq<Option<string>>): seq<Part> {
    if |urls| == 0 then []
    else (if Truthy(urls[0]) then [ImagePart(urls[0].value, LowDetail)] else []) + ImageParts(urls[1..])
  }

  /** The image parts are low-detail, carry non-empty URLs, and keep exactly
      the non-empty URLs in order. */
  lemma {:induction false} ImagePartsFacts(urls: seq<Option<string>>)
    ensures var r := ImageParts(urls);
            && (forall i :: 0 <= i < |r| ==> r[i].ImagePart? && r[i].detail == LowDetail && r[i].url != "")
            && Urls(r) == KeptUrls(urls)
            && Texts(r) == []
  {
    if |urls| > 0 {
      var head := if Truthy(urls[0]) then [ImagePart(urls[0].value, LowDetail)] else [];
      var rest := ImageParts(urls[1..]);
      var r := head + rest;
      assert ImageParts(urls) == r;
      ImagePartsFacts(urls[1..]);
      ProjectionsAppend(head, rest);
      forall i | 0 <= i < |r| ensures r[i].ImagePart? && r[i].detail == LowDetail && r[i].url != "" {
        if i >= |head| {
          assert r[i] == rest[i - |head|];
        }
      }
    }
  }

  /** `pack_message(text, image_urls, role)`. */
  function PackMessage(text: Option<string>, imageUrls: Option<seq<Option<string>>>, role: string): (r: ChatMessage)
    ensures r.Packed? && r.role == role
  {
    var textParts := if Truthy(text) then [TextPart(text.value)] else [];
    var images := if imageUrls.Some? then ImageParts(imageUrls.value) else [];
    Packed(role, textParts + images)
  }

  /** A packed message keeps the role; it has one text part, first, only for
      non-empty text; then one low-detail image part per non-empty URL, in
      order; none when the URL list is `None`. */
  lemma PackedParts(text: Option<string>, imageUrls: Option<seq<Option<string>>>, role: string)
    ensures var r := PackMessage(text, imageUrls, role);
            && Texts(r.parts) == (if Truthy(text) then [text.value] else [])
            && Urls(r.parts) == (if imageUrls.Some? then KeptUrls(imageUrls.value) else [])
            && (forall i :: 0 < i < |r.parts| ==> r.parts[i].ImagePart?)
            && (forall i :: 0 <= i < |r.parts| && r.parts[i].ImagePart? ==> r.parts[i].detail == LowDetail)
            && (|r.parts| > 0 && r.parts[0].TextPart? ==> Truthy(text))
  {
    var textParts := if Truthy(text) then [TextPart(text.value)] else [];
    var images := if imageUrls.Some? then ImageParts(imageUrls.value) else [];
    var parts := textParts + images;
    assert PackMessage(text, imageUrls, role).parts == parts;
    if imageUrls.Some? {
      ImagePartsFacts(imageUrls.value);
    }
    ProjectionsAppend(textParts, images);
    forall i | 0 <= i < |parts| && (i > 0 || parts[i].ImagePart?)
      ensures parts[i].ImagePart? && parts[i].detail == LowDetail
    {
      assert parts[i] == images[i - |textParts|];
    }
  }

  // ------------------------------------------------------------------ gen_answer

  function PromptMessages(p: Prompt): seq<ChatMessage> {
    match p
    case FromText(s) => [Raw("user", s)]
    case FromContext(ms) => ms
  }

  /** The first request: every registered descriptor with `function_call`
      "auto", or neither field when the pool is empty. */
  function FirstRequest(pool: Pool, messages: seq<ChatMessage>): Request {
    if |pool| == 0 then Request(messages, None, None)
    else Request(messages, Some(Descriptors(pool)), Some("auto"))
  }

  /** `get_function_call` returns the call's name and the caller tests its truthiness. */
  predicate RequestsCall(resp: Response) {
    resp.functionCall.Some? && resp.functionCall.value.name != ""
  }

  /** `get_args_from_response`: empty argument text gives `None`; otherwise
      `eval`, which may raise. */
  function ParseArguments(env: Env, arguments: string): Result<Option<Args>, EngineError> {
    if arguments == "" then Success(None)
    else match env.evaluate(arguments)
      case None => Failure(MalformedArguments)
      case Some(a) => Success(Some(a))
  }

  /** `choices[0].message.content`, which may be `None`. */
  function ContentValue(content: Option<string>): Value {
    Plain(if content.Some? then JStr(content.value) else JNull)
  }

  /** Everything up to the followup decision. */
  datatype Stage = Done(answer: Answer) | NeedsFollowup(first: Request, call: FunctionCall, result: Value)

  function FirstStage(pool: Pool, env: Env, prompt: Prompt): (r: Stage)
    ensures r.Done? ==> r.answer.calls == [FirstRequest(pool, PromptMessages(prompt))]
    ensures r.NeedsFollowup? ==> r.first == FirstRequest(pool, PromptMessages(prompt))
    ensures r.NeedsFollowup? ==> Lookup(pool, r.call.name).Some? && Lookup(pool, r.call.name).value.followup
  {
    var first := FirstRequest(pool, PromptMessages(prompt));
    LookupAll(pool);
    match env.provider(first)
    case Unavailable => Done(Answer([first], Failure(ProviderUnavailable)))
    case Answered(resp) =>
      if !RequestsCall(resp) then Done(Answer([first], Success(ContentValue(resp.content))))
      else
        var call := resp.functionCall.value;
        match ParseArguments(env, call.arguments)
        case Failure(e) => Done(Answer([first], Failure(e)))
        case Success(args) =>
          match CallFunctionByName(pool, call.name, args)
          case ErrorDict(_) => Done(Answer([first], Failure(UnknownFunction)))
          case Pair(followup, outcome) =>
            match outcome
            case Raised => Done(Answer([first], Failure(CallableRaised)))
            case Returned(v) =>
              if !followup then Done(Answer([first], Success(v)))
              else NeedsFollowup(first, call, v)
  }

  lemma LookupAll(pool: Pool)
    ensures forall n :: Lookup(pool, n).Some? <==> n in Names(pool)
  {
    forall n ensures Lookup(pool, n).Some? <==> n in Names(pool) {
      LookupFound(pool, n);
    }
  }

  /** The followup request: the first request's messages plus an assistant turn
      carrying the function call and a function turn carrying the serialized
      result; no functions are offered. */
  function FollowupRequest(env: Env, first: Request, call: FunctionCall, data: Json): Request {
    Request(first.messages + [FunctionCallTurn(call), FunctionResultTurn(call.name, env.dumps(data))], None, None)
  }

  lemma {:induction false} FollowupEntry(pool: Pool, name: string)
    requires Lookup(pool, name).Some? && Lookup(pool, name).value.followup
    ensures !NoFollowup(pool)
  {
    if pool[0].descriptor.name == name {
      assert pool[0].followup;
    } else {
      FollowupEntry(pool[1..], name);
      var i :| 0 <= i < |pool[1..]| && pool[1..][i].followup;
      assert pool[i + 1].followup;
    }
  }

  /** `gen_answer` with the followup turn built from the first choice's
      function call. At most two provider calls; the first carries the prompt
      and the pool's descriptors (none when the pool is empty); a second call
      happens only for a followup function and extends the first call's
      messages by exactly the two synthetic turns. */
  function GenAnswer(pool: Pool, env: Env, prompt: Prompt): (r: Answer)
    ensures 1 <= |r.calls| <= 2
    ensures r.calls[0].messages == PromptMessages(prompt)
    ensures r.calls[0].functions.None? <==> |pool| == 0
    ensures r.calls[0].functions.Some? ==> r.calls[0].functions.value == Descriptors(pool)
    ensures r.calls[0].functionCall == (if |pool| == 0 then None else Some("auto"))
    ensures |r.calls| == 2 ==> !NoFollowup(pool)
    ensures |r.calls| == 2 ==>
              && r.calls[1].functions.None? && r.calls[1].functionCall.None?
              && |r.calls[1].messages| == |r.calls[0].messages| + 2
              && r.calls[1].messages[..|r.calls[0].messages|] == r.calls[0].messages
              && r.calls[1].messages[|r.calls[0].messages|].FunctionCallTurn?
              && r.calls[1].messages[|r.calls[0].messages| + 1].FunctionResultTurn?
  {
    match FirstStage(pool, env, prompt)
    case Done(a) => a
    case NeedsFollowup(first, call, v) =>
      FollowupEntry(pool, call.name);
      match v
      case Plain(data) =>
        var second := FollowupRequest(env, first, call, data);
        assert second.messages[..|first.messages|] == first.messages;
        (match env.provider(second)
         case Unavailable => Answer([first, second], Failure(ProviderUnavailable))
         case Answered(resp) => Answer([first, second], Success(ContentValue(resp.content))))
      case _ => Answer([first], Failure(NotSerializable))
  }

  /** `gen_answer` as written: building the assistant turn reads
      `completion.function_call`, an attribute the completion object does not
      have (the call sits on `choices[0].message`), so every followup raises
      before the second request. */
  function GenAnswerAsWritten(pool: Pool, env: Env, prompt: Prompt): (r: Answer)
    ensures |r.calls| == 1
    ensures r.calls[0].messages == PromptMessages(prompt)
  {
    match FirstStage(pool, env, prompt)
    case Done(a) => a
    case NeedsFollowup(first, _, _) => Answer([first], Failure(MissingAttribute))
  }

  // ------------------------------------------------------------ answer outcomes

  /** No function call requested: the first choice's content after one call. */
  lemma DirectAnswer(pool: Pool, env: Env, prompt: Prompt, resp: Response)
    requires env.provider(FirstRequest(pool, PromptMessages(prompt))) == Answered(resp)
    requires !RequestsCall(resp)
    ensures GenAnswer(pool, env, prompt)
            == Answer([FirstRequest(pool, PromptMessages(prompt))], Success(ContentValue(resp.content)))
  {
  }

  /** A call to a registered function without followup returns the function's
      result as-is after one call. */
  lemma FunctionResultAsIs(pool: Pool, env: Env, prompt: Prompt, call: FunctionCall, args: Args, v: Value)
    requires env.provider(FirstRequest(pool, PromptMessages(prompt))).Answered?
    requires env.provider(FirstRequest(pool, PromptMessages(prompt))).response.functionCall == Some(call)
    requires call.name != "" && ParseArguments(env, call.arguments) == Success(Some(args))
    requires Lookup(pool, call.name).Some? && !Lookup(pool, call.name).value.followup
    requires Lookup(pool, call.name).value.callable(args) == Returned(v)
    ensures GenAnswer(pool, env, prompt) == Answer([FirstRequest(pool, PromptMessages(prompt))], Success(v))
  {
    LookupFound(pool, call.name);
  }

  /** A call to a followup function returning plain data makes exactly two
      calls; the second call's messages are the context plus the assistant
      function-call turn plus the function turn holding `json.dumps(result)`,
      and the answer is the second call's content. */
  lemma FollowupAnswer(pool: Pool, env: Env, prompt: Prompt, call: FunctionCall, args: Args, data: Json, resp2: Response)
    requires env.provider(FirstRequest(pool, PromptMessages(prompt))).Answered?
    requires env.provider(FirstRequest(pool, PromptMessages(prompt))).response.functionCall == Some(call)
    requires call.name != "" && ParseArguments(env, call.arguments) == Success(Some(args))
    requires Lookup(pool, call.name).Some? && Lookup(pool, call.name).value.followup
    requires Lookup(pool, call.name).value.callable(args) == Returned(Plain(data))
    requires env.provider(FollowupRequest(env, FirstRequest(pool, PromptMessages(prompt)), call, data)) == Answered(resp2)
    ensures var r := GenAnswer(pool, env, prompt);
            && |r.calls| == 2
            && r.calls[1].messages
               == PromptMessages(prompt) + [FunctionCallTurn(call), FunctionResultTurn(call.name, env.dumps(data))]
            && r.result == Success(ContentValue(resp2.content))
  {
    LookupFound(pool, call.name);
  }

  /** A call naming an unregistered function fails without invoking anything
      and without a second call. */
  lemma UnknownFunctionFails(pool: Pool, env: Env, prompt: Prompt, call: FunctionCall)
    requires env.provider(FirstRequest(pool, PromptMessages(prompt))).Answered?
    requires env.provider(FirstRequest(pool, PromptMessages(prompt))).response.functionCall == Some(call)
    requires call.name != "" && call.name !in Names(pool)
    requires ParseArguments(env, call.arguments).Success?
    ensures GenAnswer(pool, env, prompt).result == Failure(UnknownFunction)
    ensures |GenAnswer(pool, env, prompt).calls| == 1
  {
  }

  /** With no followup function registered the provider is asked exactly once,
      and the as-written engine agrees with the corrected one. */
  lemma {:induction false} SingleCallWithoutFollowup(pool: Pool, env: Env, prompt: Prompt)
    requires NoFollowup(pool)
    ensures |GenAnswer(pool, env, prompt).calls| == 1
    ensures GenAnswerAsWritten(pool, env, prompt) == GenAnswer(pool, env, prompt)
  {
    match FirstStage(pool, env, prompt)
    case Done(_) =>
    case NeedsFollowup(_, call, _) =>
      NoFollowupLookup(pool, call.name);
      assert false;
  }

  /** The followup defect: wherever the corrected engine makes its second call,
      the as-written one has raised after the first. */
  lemma FollowupAsWrittenRaises(pool: Pool, env: Env, prompt: Prompt)
    requires |GenAnswer(pool, env, prompt).calls| == 2
    ensures GenAnswerAsWritten(pool, env, prompt).result == Failure(MissingAttribute)
    ensures |GenAnswerAsWritten(pool, env, prompt).calls| == 1
  {
  }
}

=== FILE: ContextStore.dfy ===
/** The per-user conversation store of db.py. The directory of JSON files is a
    map from user id to record; every operation is a read-modify-write of one
    record, and the settings/history updates do nothing for a user without one. */
module ContextStore {
  import opened Basics
  import opened ChatEngine

  const MaxHistoryLen := 1024
  /** The number of messages eviction never goes below. */
  const MinRetained := 3
  const ImageTokens := 85
  const DefaultSettings := "Используй форматирование только MarkdownV2.\n"

  datatype Message = Message(role: string, text: Option<string>, imageUrl: Option<string>)

  /** One user's file: `{"settings": ..., "messages": [...]}`. */
  datatype Record = Record(settings: Option<string>, messages: seq<Message>)

  const EmptyRecord := Record(None, [])

  type UserId = int

  type Store = map<UserId, Record>

  // ------------------------------------------------------------- token estimate

  /** `len(text) // 4`, and 0 for a missing or empty text. */
  function EstimateTokens(text: Option<string>): nat {
    if Truthy(text) then |text.value| / 4 else 0
  }

  function MessageTokens(m: Message): nat {
    EstimateTokens(m.text) + (if Truthy(m.imageUrl) then ImageTokens else 0)
  }

  /** `history_len`: the token estimate summed from the first message on. */
  function HistoryLen(ms: seq<Message>): nat {
    if |ms| == 0 then 0 else HistoryLen(ms[..|ms| - 1]) + MessageTokens(ms[|ms| - 1])
  }

  function TextTokens(ms: seq<Message>): nat {
    if |ms| == 0 then 0 else EstimateTokens(ms[0].text) + TextTokens(ms[1..])
  }

  function ImageCount(ms: seq<Message>): nat {
    if |ms| == 0 then 0 else (if Truthy(ms[0].imageUrl) then 1 else 0) + ImageCount(ms[1..])
  }

  /** The estimate splits over concatenation. */
  lemma {:induction false} HistoryLenAppend(a: seq<Message>, b: seq<Message>)
    ensures HistoryLen(a + b) == HistoryLen(a) + HistoryLen(b)
    decreases |b|
  {
    if |b| == 0 {
      assert a + b == a;
    } else {
      var b' := b[..|b| - 1];
      assert (a + b)[..|a + b| - 1] == a + b';
      assert (a + b)[|a + b| - 1] == b[|b| - 1];
      HistoryLenAppend(a, b');
    }
  }

  lemma HistoryLenCons(ms: seq<Message>)
    requires |ms| > 0
    ensures HistoryLen(ms) == MessageTokens(ms[0]) + HistoryLen(ms[1..])
  {
    HistoryLenAppend([ms[0]], ms[1..]);
    assert [ms[0]] + ms[1..] == ms;
    assert [ms[0]][..0] == [];
  }

  /** `history_len` is the text estimate of every message plus 85 per message
      carrying an image. */
  lemma {:induction false} HistoryLenFormula(ms: seq<Message>)
    ensures HistoryLen(ms) == TextTokens(ms) + ImageTokens * ImageCount(ms)
  {
    if |ms| > 0 {
      HistoryLenCons(ms);
      HistoryLenFormula(ms[1..]);
    }
  }

  /** The loop of `history_len`, accumulating message by message. */
  method ComputeHistoryLen(ms: seq<Message>) returns (total: nat)
    ensures total == TextTokens(ms) + ImageTokens * ImageCount(ms)
  {
    total := 0;
    var i := 0;
    while i < |ms|
      invariant 0 <= i <= |ms|
      invariant total == HistoryLen(ms[..i])
    {
      assert ms[..i + 1][..i] == ms[..i];
      total := total + EstimateTokens(ms[i].text);
      if Truthy(ms[i].imageUrl) {
        total := total + ImageTokens;
      }
      i := i + 1;
    }
    assert ms[..|ms|] == ms;
    HistoryLenFormula(ms);
  }

  // ------------------------------------------------------------ to_dict/from_dict

  function OptionalJson(s: Option<string>): Json {
    if s.Some? then JStr(s.value) else JNull
  }

  /** `Message.to_dict`. */
  function ToDict(m: Message): map<string, Json> {
    map["role" := JStr(m.role), "text" := OptionalJson(m.text), "image_url" := OptionalJson(m.imageUrl)]
  }

  /** Reads an optional string field: missing or null is `None`. */
  function OptionalField(d: map<string, Json>, key: string): Option<Option<string>> {
    if key !in d || d[key] == JNull then Some(None)
    else if d[key].JStr? then Some(Some(d[key].s))
    else None
  }

  /** `Message.from_dict`, restricted to the string-typed fields `to_dict` writes. */
  function FromDict(d: map<string, Json>): (r: Option<Message>)
    ensures r.Some? ==> "role" in d && d["role"] == JStr(r.value.role)
    ensures r.Some? ==> ("text" in d && d["text"].JStr?) == r.value.text.Some?
    ensures r.Some? ==> ("image_url" in d && d["image_url"].JStr?) == r.value.imageUrl.Some?
  {
    if "role" !in d || !d["role"].JStr? then None
    else
      match (OptionalField(d, "text"), OptionalField(d, "image_url"))
      case (Some(text), Some(url)) => Some(Message(d["role"].s, text, url))
      case _ => None
  }

  /** Reading back a written message reproduces role, text and image URL. */
  lemma DictRoundTrip(m: Message)
    ensures FromDict(ToDict(m)) == Some(m)
  {
  }

  // ---------------------------------------------------------------- eviction

  /** The eviction loop's guard, on the message count as evidently intended:
      over the token budget with more than `MinRetained` messages left. */
  predicate OverBudget(ms: seq<Message>) {
    HistoryLen(ms) > MaxHistoryLen && |ms| > MinRetained
  }

  /** How many of the oldest messages the loop drops: it stops at the first
      suffix that is no longer over budget, and never goes below
      `MinRetained` messages once it has started. */
  function EvictCount(ms: seq<Message>): (k: nat)
    ensures k <= |ms|
    ensures !OverBudget(ms[k..])
    ensures k == 0 || |ms| - k >= MinRetained
    decreases |ms|
  {
    if OverBudget(ms) then
      var k := EvictCount(ms[1..]);
      assert ms[1..][k..] == ms[1 + k..];
      1 + k
    else
      assert ms[0..] == ms;
      0
  }

  /** Oldest-first eviction: the retained messages are a suffix within budget
      (or down to `MinRetained`), and at least `MinRetained` of them survive
      when there were that many. */
  function Evict(ms: seq<Message>): (r: seq<Message>)
    ensures |r| <= |ms| && r == ms[|ms| - |r|..]
    ensures !OverBudget(r)
    ensures |r| >= (if |ms| < MinRetained then |ms| else MinRetained)
  {
    ms[EvictCount(ms)..]
  }

  /** Eviction stops at the first chance: every dropped message was dropped
      while the remaining history was over budget. */
  lemma {:induction false} EvictMinimal(ms: seq<Message>)
    ensures forall j :: 0 <= j < EvictCount(ms) ==> OverBudget(ms[j..])
    decreases |ms|
  {
    if OverBudget(ms) {
      EvictMinimal(ms[1..]);
      assert ms[0..] == ms;
      forall j | 1 <= j < EvictCount(ms) ensures OverBudget(ms[j..]) {
        assert ms[1..][j - 1..] == ms[j..];
      }
    }
  }

  /** Eviction never drops the newest message. */
  lemma EvictKeepsLast(ms: seq<Message>, m: Message)
    ensures var r := Evict(ms + [m]);
            |r| >= 1 && r[|r| - 1] == m
  {
    var ms' := ms + [m];
    var r := Evict(ms');
    assert r[|r| - 1] == ms'[|ms'| - |r| + |r| - 1];
  }

  /** Within budget, or with at most `MinRetained` messages, nothing is evicted. */
  lemma EvictKeeps(ms: seq<Message>)
    requires !OverBudget(ms)
    ensures Evict(ms) == ms
  {
  }

  /** Appending and evicting twice keeps both appended messages, last and in
      order. */
  lemma EvictTwiceEnds(h0: seq<Message>, u: Message, a: Message)
    ensures var h := Evict(Evict(h0 + [u]) + [a]);
            |h| >= 2 && h[|h| - 2] == u && h[|h| - 1] == a
  {
    EvictKeepsLast(h0, u);
    AppendEvictEnds(Evict(h0 + [u]), u, a);
  }

  /** Evicting after appending `a` to a history that ends with `u` keeps both. */
  lemma AppendEvictEnds(h1: seq<Message>, u: Message, a: Message)
    requires |h1| >= 1 && h1[|h1| - 1] == u
    ensures var h := Evict(h1 + [a]);
            |h| >= 2 && h[|h| - 2] == u && h[|h| - 1] == a
  {
    var ms := h1 + [a];
    var h := Evict(ms);
    assert |ms| == |h1| + 1;
    assert |h| >= 2;
    LastTwo(ms, h);
    assert ms[|ms| - 2] == h1[|h1| - 1];
    assert ms[|ms| - 1] == a;
  }

  /** A suffix of at least two messages ends with the last two of the whole. */
  lemma LastTwo(ms: seq<Message>, h: seq<Message>)
    requires 2 <= |h| <= |ms| && h == ms[|ms| - |h|..]
    ensures h[|h| - 2] == ms[|ms| - 2] && h[|h| - 1] == ms[|ms| - 1]
  {
  }

  // ------------------------------------------------------------ add_to_history

  function RecordOf(store: Store, uid: UserId): Record {
    if uid in store then store[uid] else EmptyRecord
  }

  /** `add_to_history` with the evidently intended guard on the message count:
      the record is created empty when missing, the new message is appended and
      then the oldest messages are evicted; settings and other users stay. */
  function AddToHistory(store: Store, uid: UserId, role: string, text: Option<string>, imageUrl: Option<string>): (r: Store)
    ensures r.Keys == store.Keys + {uid}
    ensures forall u :: u in store && u != uid ==> r[u] == store[u]
    ensures r[uid].settings == GetSettings(store, uid)
    ensures r[uid].messages == Evict(GetHistory(store, uid) + [Message(role, text, imageUrl)])
  {
    var rec := RecordOf(store, uid);
    store[uid := Record(rec.settings, Evict(rec.messages + [Message(role, text, imageUrl)]))]
  }

  /** `add_to_history` seen through `get_history`: the new history is a
      suffix of the old one plus the new message, ends with that message,
      is within budget or down to `MinRetained` messages, and keeps at least
      that many when there were that many. */
  lemma AddHistory(store: Store, uid: UserId, role: string, text: Option<string>, imageUrl: Option<string>)
    ensures var h := GetHistory(AddToHistory(store, uid, role, text, imageUrl), uid);
            var ms := GetHistory(store, uid) + [Message(role, text, imageUrl)];
            && 1 <= |h| <= |ms|
            && |h| >= (if |ms| < MinRetained then |ms| else MinRetained)
            && h == ms[|ms| - |h|..]
            && h[|h| - 1] == Message(role, text, imageUrl)
            && !OverBudget(h)
  {
    var h := GetHistory(AddToHistory(store, uid, role, text, imageUrl), uid);
    var ms := GetHistory(store, uid) + [Message(role, text, imageUrl)];
    assert h == Evict(ms);
    assert h[|h| - 1] == ms[|ms| - 1];
  }

  /** The number of keys of the stored record, which the as-written guard reads
      as `len(history)`. */
  const RecordKeyCount := 2

  /** `add_to_history` as written: the loop guard compares `len(history)` — the
      two keys of the record — with 3, so the loop body never runs and the
      message is only appended. */
  function AddToHistoryAsWritten(store: Store, uid: UserId, role: string, text: Option<string>, imageUrl: Option<string>): (r: Store)
    ensures r.Keys == store.Keys + {uid}
    ensures forall u :: u in store && u != uid ==> r[u] == store[u]
    ensures r[uid] == RecordOf(store, uid).(messages := RecordOf(store, uid).messages + [Message(role, text, imageUrl)])
  {
    var rec := RecordOf(store, uid);
    var ms := rec.messages + [Message(role, text, imageUrl)];
    assert !(HistoryLen(ms) > MaxHistoryLen && RecordKeyCount > MinRetained);
    store[uid := rec.(messages := ms)]
  }

  const Photo := Message("user", None, Some("photo"))

  /** The eviction defect: thirteen photo messages estimate 1105 tokens; the
      as-written store keeps all of them, the corrected one drops the oldest. */
  lemma EvictionNeverFiresAsWritten()
    ensures var store := map[7 := Record(None, seq(12, _ => Photo))];
            var asWritten := AddToHistoryAsWritten(store, 7, "user", None, Some("photo"));
            var corrected := AddToHistory(store, 7, "user", None, Some("photo"));
            && |asWritten[7].messages| == 13
            && HistoryLen(asWritten[7].messages) > MaxHistoryLen
            && |corrected[7].messages| == 12
            && HistoryLen(corrected[7].messages) <= MaxHistoryLen
  {
    var ms := seq(13, _ => Photo);
    assert seq(12, _ => Photo) + [Photo] == ms;
    PhotosLen(ms);
    PhotosLen(ms[1..]);
    assert OverBudget(ms);
    assert !OverBudget(ms[1..]);
    assert EvictCount(ms[1..]) == 0;
    assert EvictCount(ms) == 1;
  }

  lemma {:induction false} PhotosLen(ms: seq<Message>)
    requires forall i :: 0 <= i < |ms| ==> ms[i] == Photo
    ensures HistoryLen(ms) == ImageTokens * |ms|
  {
    if |ms| > 0 {
      HistoryLenCons(ms);
      PhotosLen(ms[1..]);
    }
  }

  // ------------------------------------------------------------------ readers

  /** `get_settings`. */
  function GetSettings(store: Store, uid: UserId): Option<string> {
    if uid in store then store[uid].settings else None
  }

  /** `get_history`. */
  function GetHistory(store: Store, uid: UserId): seq<Message> {
    if uid in store then store[uid].messages else []
  }

  /** The system text: the default instruction, followed by non-empty settings. */
  function SystemText(settings: Option<string>): string {
    if Truthy(settings) then DefaultSettings + settings.value else DefaultSettings
  }

  /** A stored message as `get_full_context` replays it: packed with its one
      (possibly missing) image URL. */
  function Replay(m: Message): (r: ChatMessage)
    ensures r.Packed? && r.role == m.role
  {
    PackMessage(m.text, Some([m.imageUrl]), m.role)
  }

  function HistoryMessages(ms: seq<Message>): (r: seq<ChatMessage>)
    ensures |r| == |ms|
  {
    if |ms| == 0 then [] else [Replay(ms[0])] + HistoryMessages(ms[1..])
  }

  /** The replayed history holds each stored message, in stored order. */
  lemma {:induction false} HistoryMessagesAt(ms: seq<Message>, i: int)
    requires 0 <= i < |ms|
    ensures HistoryMessages(ms)[i] == Replay(ms[i])
  {
    var hm := HistoryMessages(ms);
    assert hm == [Replay(ms[0])] + HistoryMessages(ms[1..]);
    if i > 0 {
      HistoryMessagesAt(ms[1..], i - 1);
      assert ms[1..][i - 1] == ms[i];
      assert hm[i] == HistoryMessages(ms[1..])[i - 1];
    }
  }

  /** `get_full_context`: one system message holding the default instruction
      and the user's settings, then every stored message packed with its image,
      in stored order. */
  function GetFullContext(store: Store, uid: UserId): (r: seq<ChatMessage>)
    ensures |r| == 1 + |GetHistory(store, uid)|
    ensures r[0] == Packed("system", [TextPart(SystemText(GetSettings(store, uid)))])
    ensures r[1..] == HistoryMessages(GetHistory(store, uid))
  {
    var system := PackMessage(Some(SystemText(GetSettings(store, uid))), None, "system");
    assert Texts(system.parts) == [SystemText(GetSettings(store, uid))];
    assert system.parts == [TextPart(SystemText(GetSettings(store, uid)))] by {
      assert |DefaultSettings| > 0;
    }
    [system] + HistoryMessages(GetHistory(store, uid))
  }

  // ------------------------------------------------------------------ updates

  /** `set_settings`: replaces the settings of an existing record only. */
  function SetSettings(store: Store, uid: UserId, settings: string): (r: Store)
    ensures r.Keys == store.Keys
    ensures forall u :: u in store && u != uid ==> r[u] == store[u]
    ensures uid in store ==> r[uid] == Record(Some(settings), store[uid].messages)
  {
    if uid in store then store[uid := store[uid].(settings := Some(settings))] else store
  }

  /** `drop_settings`: clears the settings of an existing record only. */
  function DropSettings(store: Store, uid: UserId): (r: Store)
    ensures r.Keys == store.Keys
    ensures forall u :: u in store && u != uid ==> r[u] == store[u]
    ensures uid in store ==> r[uid] == Record(None, store[uid].messages)
  {
    if uid in store then store[uid := store[uid].(settings := None)] else store
  }

  /** `drop_history`: empties the messages of an existing record, keeping its settings. */
  function DropHistory(store: Store, uid: UserId): (r: Store)
    ensures r.Keys == store.Keys
    ensures forall u :: u in store && u != uid ==> r[u] == store[u]
    ensures uid in store ==> r[uid] == Record(store[uid].settings, [])
  {
    if uid in store then store[uid := store[uid].(messages := [])] else store
  }

  // --------------------------------------------------------- store properties

  /** Setting then reading the settings gives them back for a user with a
      record and `None` otherwise; the history is untouched. */
  lemma SetThenGet(store: Store, uid: UserId, settings: string)
    ensures GetSettings(SetSettings(store, uid, settings), uid) == (if uid in store then Some(settings) else None)
    ensures GetHistory(SetSettings(store, uid, settings), uid) == GetHistory(store, uid)
  {
  }

  /** Dropping then reading the settings gives `None`; the history is untouched. */
  lemma DropThenGet(store: Store, uid: UserId)
    ensures GetSettings(DropSettings(store, uid), uid) == None
    ensures GetHistory(DropSettings(store, uid), uid) == GetHistory(store, uid)
  {
  }

  /** After dropping the history the context is the system message alone, with
      the settings still in it. */
  lemma DropHistoryContext(store: Store, uid: UserId)
    ensures GetFullContext(DropHistory(store, uid), uid)
            == [Packed("system", [TextPart(SystemText(GetSettings(store, uid)))])]
  {
    var r := GetFullContext(DropHistory(store, uid), uid);
    assert |r| == 1;
  }

  /** Appending then assembling the context shows the new message exactly once,
      as the last message, and the system message first. */
  lemma AddThenContext(store: Store, uid: UserId, role: string, text: Option<string>, imageUrl: Option<string>)
    ensures var c := GetFullContext(AddToHistory(store, uid, role, text, imageUrl), uid);
            && |c| >= 2
            && c[|c| - 1] == Replay(Message(role, text, imageUrl))
            && c[0] == Packed("system", [TextPart(SystemText(GetSettings(store, uid)))])
  {
    var m := Message(role, text, imageUrl);
    ContextAfterAdd(store, uid, role, text, imageUrl);
    var sys := Packed("system", [TextPart(SystemText(GetSettings(store, uid)))]);
    var hm := HistoryMessages(Evict(GetHistory(store, uid) + [m]));
    ReplayedLast(GetHistory(store, uid), m);
    var c := [sys] + hm;
    assert c[|c| - 1] == hm[|hm| - 1];
  }

  /** The context after an append, with the history as a sequence computation. */
  lemma ContextAfterAdd(store: Store, uid: UserId, role: string, text: Option<string>, imageUrl: Option<string>)
    ensures GetFullContext(AddToHistory(store, uid, role, text, imageUrl), uid)
            == [Packed("system", [TextPart(SystemText(GetSettings(store, uid)))])]
               + HistoryMessages(Evict(GetHistory(store, uid) + [Message(role, text, imageUrl)]))
  {
    var store' := AddToHistory(store, uid, role, text, imageUrl);
    RecordContext(store', uid, GetSettings(store, uid), Evict(GetHistory(store, uid) + [Message(role, text, imageUrl)]));
  }

  /** The context of a user whose record holds the given settings and history. */
  lemma RecordContext(store: Store, uid: UserId, settings: Option<string>, history: seq<Message>)
    requires uid in store && store[uid].settings == settings && store[uid].messages == history
    ensures GetFullContext(store, uid) == [Packed("system", [TextPart(SystemText(settings))])] + HistoryMessages(history)
  {
    ContextShape(store, uid);
  }

  /** The replayed history after an append ends with the appended message. */
  lemma ReplayedLast(h0: seq<Message>, m: Message)
    ensures var hm := HistoryMessages(Evict(h0 + [m]));
            |hm| >= 1 && hm[|hm| - 1] == Replay(m)
  {
    var h := Evict(h0 + [m]);
    EvictKeepsLast(h0, m);
    HistoryMessagesAt(h, |h| - 1);
  }

  lemma {:induction false} HistoryMessagesSnoc(ms: seq<Message>, m: Message)
    ensures HistoryMessages(ms + [m]) == HistoryMessages(ms) + [Replay(m)]
  {
    var l := ms + [m];
    if |ms| > 0 {
      assert l[0] == ms[0];
      assert l[1..] == ms[1..] + [m];
      HistoryMessagesSnoc(ms[1..], m);
      assert HistoryMessages(l) == [Replay(ms[0])] + HistoryMessages(ms[1..] + [m]);
      assert HistoryMessages(ms) == [Replay(ms[0])] + HistoryMessages(ms[1..]);
    } else {
      assert l == [m];
      assert l[1..] == [];
    }
  }

  /** Without eviction the context grows by exactly the new message. */
  lemma AddThenContextNoEviction(store: Store, uid: UserId, role: string, text: Option<string>, imageUrl: Option<string>)
    requires HistoryLen(GetHistory(store, uid) + [Message(role, text, imageUrl)]) <= MaxHistoryLen
    ensures GetFullContext(AddToHistory(store, uid, role, text, imageUrl), uid)
            == GetFullContext(store, uid) + [Replay(Message(role, text, imageUrl))]
  {
    var m := Message(role, text, imageUrl);
    EvictKeeps(GetHistory(store, uid) + [m]);
    var store' := AddToHistory(store, uid, role, text, imageUrl);
    assert GetHistory(store', uid) == GetHistory(store, uid) + [m];
    assert GetSettings(store', uid) == GetSettings(store, uid);
    ContextAfterAppend(store, store', uid, m);
  }

  lemma ContextAfterAppend(store: Store, store': Store, uid: UserId, m: Message)
    requires GetHistory(store', uid) == GetHistory(store, uid) + [m]
    requires GetSettings(store', uid) == GetSettings(store, uid)
    ensures GetFullContext(store', uid) == GetFullContext(store, uid) + [Replay(m)]
  {
    var sys := Packed("system", [TextPart(SystemText(GetSettings(store, uid)))]);
    var h := HistoryMessages(GetHistory(store, uid));
    calc {
      GetFullContext(store', uid);
      == { ContextShape(store', uid); }
      [sys] + HistoryMessages(GetHistory(store, uid) + [m]);
      == { HistoryMessagesSnoc(GetHistory(store, uid), m); }
      [sys] + (h + [Replay(m)]);
      == ([sys] + h) + [Replay(m)];
      == { ContextShape(store, uid); }
      GetFullContext(store, uid) + [Replay(m)];
    }
  }

  lemma ContextShape(store: Store, uid: UserId)
    ensures GetFullContext(store, uid)
            == [Packed("system", [TextPart(SystemText(GetSettings(store, uid)))])] + HistoryMessages(GetHistory(store, uid))
  {
  }

  /** Every stored message is a user or assistant turn. */
  predicate RolesValid(store: Store) {
    forall u :: u in store ==> ConversationRoles(store[u].messages)
  }

  predicate ConversationRoles(ms: seq<Message>) {
    forall i :: 0 <= i < |ms| ==> ms[i].role == "user" || ms[i].role == "assistant"
  }

  /** With only user and assistant turns stored, the context holds exactly one
      system message, the first. */
  lemma SingleSystemMessage(store: Store, uid: UserId)
    requires RolesValid(store)
    ensures var c := GetFullContext(store, uid);
            c[0].role == "system" && forall i :: 1 <= i < |c| ==> c[i].Packed? && c[i].role != "system"
  {
    var h := GetHistory(store, uid);
    assert ConversationRoles(h) by {
      if uid in store {
        assert ConversationRoles(store[uid].messages);
      }
    }
    ReplayedRoles(h);
    TailRoles(GetFullContext(store, uid), HistoryMessages(h));
  }

  /** Replaying user and assistant turns gives packed non-system messages. */
  lemma ReplayedRoles(h: seq<Message>)
    requires ConversationRoles(h)
    ensures forall i :: 0 <= i < |h| ==> HistoryMessages(h)[i].Packed? && HistoryMessages(h)[i].role != "system"
  {
    forall i | 0 <= i < |h| ensures HistoryMessages(h)[i].Packed? && HistoryMessages(h)[i].role != "system" {
      HistoryMessagesAt(h, i);
    }
  }

  lemma TailRoles(c: seq<ChatMessage>, hm: seq<ChatMessage>)
    requires |c| >= 1 && c[1..] == hm
    requires forall i :: 0 <= i < |hm| ==> hm[i].Packed? && hm[i].role != "system"
    ensures forall i :: 1 <= i < |c| ==> c[i].Packed? && c[i].role != "system"
  {
    forall i | 1 <= i < |c| ensures c[i].Packed? && c[i].role != "system" {
      assert c[i] == hm[i - 1];
    }
  }

  /** Appending a user or assistant turn keeps the role invariant. */
  lemma AddKeepsRoles(store: Store, uid: UserId, role: string, text: Option<string>, imageUrl: Option<string>)
    requires RolesValid(store)
    requires role == "user" || role == "assistant"
    ensures RolesValid(AddToHistory(store, uid, role, text, imageUrl))
  {
    var rec := RecordOf(store, uid);
    var m := Message(role, text, imageUrl);
    assert ConversationRoles(rec.messages) by {
      if uid in store {
        assert ConversationRoles(store[uid].messages);
      }
    }
    EvictKeepsRoles(rec.messages, m);
    UpdateKeepsRoles(store, uid, Record(rec.settings, Evict(rec.messages + [m])));
  }

  lemma UpdateKeepsRoles(store: Store, uid: UserId, rec: Record)
    requires RolesValid(store)
    requires ConversationRoles(rec.messages)
    ensures RolesValid(store[uid := rec])
  {
    var r := store[uid := rec];
    forall u | u in r ensures ConversationRoles(r[u].messages) {
      if u != uid {
        assert r[u] == store[u];
      }
    }
  }

  lemma EvictKeepsRoles(ms: seq<Message>, m: Message)
    requires ConversationRoles(ms)
    requires m.role == "user" || m.role == "assistant"
    ensures ConversationRoles(Evict(ms + [m]))
  {
    SnocKeepsRoles(ms, m);
    SuffixKeepsRoles(ms + [m], Evict(ms + [m]));
  }

  /** The as-written append, seen through the readers: exactly one more
      message at the end of the history (from an empty one for a user without
      a record), and the settings as they were. */
  lemma AddAsWrittenHistory(store: Store, uid: UserId, role: string, text: Option<string>, imageUrl: Option<string>)
    ensures var r := AddToHistoryAsWritten(store, uid, role, text, imageUrl);
            && GetHistory(r, uid) == GetHistory(store, uid) + [Message(role, text, imageUrl)]
            && GetSettings(r, uid) == GetSettings(store, uid)
  {
  }

  /** Appending a user or assistant turn as written keeps the role invariant. */
  lemma AddAsWrittenKeepsRoles(store: Store, uid: UserId, role: string, text: Option<string>, imageUrl: Option<string>)
    requires RolesValid(store)
    requires role == "user" || role == "assistant"
    ensures RolesValid(AddToHistoryAsWritten(store, uid, role, text, imageUrl))
  {
    var rec := RecordOf(store, uid);
    var m := Message(role, text, imageUrl);
    assert ConversationRoles(rec.messages) by {
      if uid in store {
        assert ConversationRoles(store[uid].messages);
      }
    }
    SnocKeepsRoles(rec.messages, m);
    UpdateKeepsRoles(store, uid, rec.(messages := rec.messages + [m]));
  }

  /** The settings and history commands never store a system message either. */
  lemma CommandsKeepRoles(store: Store, uid: UserId, settings: string)
    requires RolesValid(store)
    ensures RolesValid(SetSettings(store, uid, settings))
    ensures RolesValid(DropSettings(store, uid))
    ensures RolesValid(DropHistory(store, uid))
  {
    if uid in store {
      assert ConversationRoles(store[uid].messages);
      UpdateKeepsRoles(store, uid, store[uid].(settings := Some(settings)));
      UpdateKeepsRoles(store, uid, store[uid].(settings := None));
      UpdateKeepsRoles(store, uid, store[uid].(messages := []));
    }
  }

  lemma SnocKeepsRoles(ms: seq<Message>, m: Message)
    requires ConversationRoles(ms)
    requires m.role == "user" || m.role == "assistant"
    ensures ConversationRoles(ms + [m])
  {
    var l := ms + [m];
    forall i | 0 <= i < |l| ensures l[i].role == "user" || l[i].role == "assistant" {
      if i < |ms| {
        assert l[i] == ms[i];
      }
    }
  }

  lemma SuffixKeepsRoles(ms: seq<Message>, h: seq<Message>)
    requires ConversationRoles(ms)
    requires |h| <= |ms| && h == ms[|ms| - |h|..]
    ensures ConversationRoles(h)
  {
    forall i | 0 <= i < |h| ensures h[i].role == "user" || h[i].role == "assistant" {
      assert h[i] == ms[|ms| - |h| + i];
    }
  }
}

=== FILE: Escape.dfy ===
/** Backslash-escaping by repeated `str.replace`, the technique shared by the
    log sink's Markdown escaping and the bot's reply escaping. */
module Escape {

  const Backslash: char := '\\'

  /** `s.replace(c, "\\" + c)`: a backslash before every occurrence of `c`. */
  function ReplaceChar(s: string, c: char): (r: string)
    ensures |r| >= |s|
  {
    if |s| == 0 then ""
    else (if s[0] == c then [Backslash, c] else [s[0]]) + ReplaceChar(s[1..], c)
  }

  /** `for char in chars: text = text.replace(char, "\\" + char)`. */
  function EscapeSeq(s: string, chars: string): string
    decreases |chars|
  {
    if |chars| == 0 then s else EscapeSeq(ReplaceChar(s, chars[0]), chars[1..])
  }

  /** Reference definition: one left-to-right pass that puts a backslash before
      every character of `special` and copies every other character. */
  function EscapeOnce(s: string, special: set<char>): string {
    if |s| == 0 then ""
    else (if s[0] in special then [Backslash, s[0]] else [s[0]]) + EscapeOnce(s[1..], special)
  }

  /** Number of characters of `s` that belong to `special`. */
  function CountIn(s: string, special: set<char>): nat {
    if |s| == 0 then 0 else (if s[0] in special then 1 else 0) + CountIn(s[1..], special)
  }

  function CharSet(cs: string): set<char> {
    set i | 0 <= i < |cs| :: cs[i]
  }

  predicate Distinct(cs: string) {
    forall i, j :: 0 <= i < j < |cs| ==> cs[i] != cs[j]
  }

  /** Two repetition-free strings with no character in common concatenate to
      a repetition-free string. */
  lemma DistinctConcat(a: string, b: string)
    requires Distinct(a) && Distinct(b)
    requires forall c :: c in a ==> c !in b
    ensures Distinct(a + b)
  {
    forall i, j | 0 <= i < j < |a + b| ensures (a + b)[i] != (a + b)[j] {
      if j < |a| {
        assert (a + b)[i] == a[i] && (a + b)[j] == a[j];
      } else if i >= |a| {
        assert (a + b)[i] == b[i - |a|] && (a + b)[j] == b[j - |a|];
      } else {
        assert (a + b)[i] == a[i] && a[i] in a;
        assert (a + b)[j] == b[j - |a|];
      }
    }
  }

  /** Removes the backslash in front of every character of `special`; the
      inverse of `EscapeOnce` when the backslash itself is not special. */
  function Unescape(s: string, special: set<char>): string {
    if |s| == 0 then ""
    else if |s| >= 2 && s[0] == Backslash && s[1] in special then [s[1]] + Unescape(s[2..], special)
    else [s[0]] + Unescape(s[1..], special)
  }

  /** A single replace is a single pass for the one-character set. */
  lemma {:induction false} ReplaceIsEscapeOnce(s: string, c: char)
    ensures ReplaceChar(s, c) == EscapeOnce(s, {c})
  {
    if |s| > 0 {
      ReplaceIsEscapeOnce(s[1..], c);
    }
  }

  /** Replacing `c` and then escaping the set `rest` in one pass equals escaping
      `rest + {c}` in one pass, provided neither the backslash nor `c` is in `rest`. */
  lemma {:induction false} ReplaceThenEscape(s: string, c: char, rest: set<char>)
    requires Backslash !in rest && c !in rest
    ensures EscapeOnce(ReplaceChar(s, c), rest) == EscapeOnce(s, rest + {c})
  {
    if |s| > 0 {
      ReplaceThenEscape(s[1..], c, rest);
      EscapeOnceAppend(if s[0] == c then [Backslash, c] else [s[0]], ReplaceChar(s[1..], c), rest);
      if s[0] == c {
        assert EscapeOnce([Backslash, c], rest) == [Backslash, c];
      } else {
        assert EscapeOnce([s[0]], rest) == (if s[0] in rest then [Backslash, s[0]] else [s[0]]);
      }
    }
  }

  lemma {:induction false} EscapeOnceAppend(a: string, b: string, special: set<char>)
    ensures EscapeOnce(a + b, special) == EscapeOnce(a, special) + EscapeOnce(b, special)
  {
    if |a| > 0 {
      assert (a + b)[1..] == a[1..] + b;
      EscapeOnceAppend(a[1..], b, special);
    } else {
      assert a + b == b;
    }
  }

  /** The sequential replace loop equals single-pass escaping when the list has
      no repeated character and does not contain the backslash. */
  lemma {:induction false} EscapeSeqIsSinglePass(s: string, chars: string)
    requires Distinct(chars) && Backslash !in chars
    ensures EscapeSeq(s, chars) == EscapeOnce(s, CharSet(chars))
    decreases |chars|
  {
    if |chars| == 0 {
      assert CharSet(chars) == {};
      EscapeOnceEmpty(s);
    } else {
      var c := chars[0];
      var rest := chars[1..];
      EscapeSeqIsSinglePass(ReplaceChar(s, c), rest);
      assert c !in CharSet(rest) by {
        forall i | 0 <= i < |rest| ensures rest[i] != c {
          assert rest[i] == chars[i + 1];
        }
      }
      assert Backslash !in CharSet(rest) by {
        forall i | 0 <= i < |rest| ensures rest[i] != Backslash {
          assert rest[i] == chars[i + 1];
        }
      }
      ReplaceThenEscape(s, c, CharSet(rest));
      assert CharSet(chars) == CharSet(rest) + {c} by {
        forall x | x in CharSet(chars) ensures x in CharSet(rest) + {c} {
          var i :| 0 <= i < |chars| && chars[i] == x;
          if i > 0 {
            assert rest[i - 1] == x;
          }
        }
        forall x | x in CharSet(rest) ensures x in CharSet(chars) {
          var i :| 0 <= i < |rest| && rest[i] == x;
          assert chars[i + 1] == x;
        }
      }
    }
  }

  lemma {:induction false} EscapeOnceEmpty(s: string)
    ensures EscapeOnce(s, {}) == s
  {
    if |s| > 0 {
      EscapeOnceEmpty(s[1..]);
    }
  }

  /** Escaping adds exactly one character per special character of the input. */
  lemma {:induction false} EscapeLength(s: string, special: set<char>)
    ensures |EscapeOnce(s, special)| == |s| + CountIn(s, special)
  {
    if |s| > 0 {
      EscapeLength(s[1..], special);
    }
  }

  /** Removing the inserted backslashes recovers the original text. */
  lemma {:induction false} UnescapeInverse(s: string, special: set<char>)
    requires Backslash !in special
    ensures Unescape(EscapeOnce(s, special), special) == s
  {
    if |s| > 0 {
      var tail := EscapeOnce(s[1..], special);
      UnescapeInverse(s[1..], special);
      if |tail| > 0 {
        assert tail[0] == (if s[1] in special then Backslash else s[1]);
      }
      if s[0] in special {
        assert EscapeOnce(s, special) == [Backslash, s[0]] + tail;
        assert (EscapeOnce(s, special))[2..] == tail;
      } else {
        assert EscapeOnce(s, special) == [s[0]] + tail;
        assert (EscapeOnce(s, special))[1..] == tail;
      }
    }
  }

  /** Replacing a character that does not occur changes nothing. */
  lemma {:induction false} ReplaceAbsent(s: string, c: char)
    requires forall i :: 0 <= i < |s| ==> s[i] != c
    ensures ReplaceChar(s, c) == s
  {
    if |s| > 0 {
      ReplaceAbsent(s[1..], c);
    }
  }

  /** With no listed character in the text (in particular with an empty list),
      the replace loop returns the text unchanged. */
  lemma {:induction false} EscapeSeqAbsent(s: string, chars: string)
    requires forall i :: 0 <= i < |s| ==> s[i] !in chars
    ensures EscapeSeq(s, chars) == s
    decreases |chars|
  {
    if |chars| > 0 {
      ReplaceAbsent(s, chars[0]);
      EscapeSeqAbsent(s, chars[1..]);
    }
  }
}

=== FILE: FunctionRegistry.dfy ===
/** The function pool of asyncgpt.py: registration builds a JSON-schema-shaped
    descriptor from a function's annotated parameters, and dispatch looks a
    registered function up by name and calls it. The pool is a sequence of
    entries with distinct names, in registration order, as the Python dict is. */
module FunctionRegistry {
  import opened Basics

  /** Default text for a missing function or parameter description. */
  const NoDescription := "Нет описания"

  /** A parameter annotation as the decorator sees it: a plain class (`str`,
      `int`, ...) or a subscripted generic (`list[str]`) of which only the first
      type argument is ever read. */
  datatype PyType = Simple(name: string) | Generic(origin: string, first: PyType)

  /** The annotation's `__name__`; a subscripted generic reports its origin's. */
  function TypeName(t: PyType): string {
    match t
    case Simple(n) => n
    case Generic(o, _) => o
  }

  /** One entry of the descriptor's `properties`: scalar `{"type", "description"}`
      or array `{"type": "array", "description", "items": {"type"}}`. */
  datatype Schema = Scalar(typeName: string) | Array(itemsType: string)

  datatype Property = Property(name: string, schema: Schema, description: string)

  /** What is sent to the model: name, description and the `parameters` object
      (always of type "object") with its properties and required list. */
  datatype Descriptor = Descriptor(name: string, description: string, properties: seq<Property>, required: seq<string>)

  /** Why registration raised: `list` without a type argument has no `__args__`;
      a non-list type named "array" makes the comprehension look up missing `items`. */
  datatype RegistrationError = MissingTypeArguments(param: string) | MissingItems(param: string)

  /** A function result: plain data, or one of the two action objects of the built-ins. */
  datatype Value = Plain(json: Json) | ClarifyQuestion(question: Json, options: Json) | Memory(memory: Json)

  /** Calling a registered function with keyword arguments returns or raises. */
  datatype CallOutcome = Returned(value: Value) | Raised

  type Args = map<string, Json>

  datatype Entry = Entry(descriptor: Descriptor, followup: bool, callable: Args -> CallOutcome)

  type Pool = seq<Entry>

  /** What `call_function_by_name` returns: a pair, or the error dict alone. */
  datatype Dispatch = Pair(followup: bool, outcome: CallOutcome) | ErrorDict(dict: Json)

  const FunctionNotFound := JObj([("error", JStr("Function not found"))])

  predicate Unique(names: seq<string>) {
    forall i, j :: 0 <= i < j < |names| ==> names[i] != names[j]
  }

  function Names(pool: Pool): seq<string> {
    if |pool| == 0 then [] else [pool[0].descriptor.name] + Names(pool[1..])
  }

  /** The schema list offered to the model, in pool order. */
  function Descriptors(pool: Pool): seq<Descriptor> {
    if |pool| == 0 then [] else [pool[0].descriptor] + Descriptors(pool[1..])
  }

  function Lookup(pool: Pool, name: string): Option<Entry> {
    if |pool| == 0 then None
    else if pool[0].descriptor.name == name then Some(pool[0])
    else Lookup(pool[1..], name)
  }

  lemma {:induction false} LookupFound(pool: Pool, name: string)
    ensures Lookup(pool, name).Some? <==> name in Names(pool)
    ensures Lookup(pool, name).Some? ==> Lookup(pool, name).value.descriptor.name == name
  {
    if |pool| > 0 {
      LookupFound(pool[1..], name);
    }
  }

  /** `function_pool[name] = entry`: a new name goes to the end, an existing
      one is overwritten in place. */
  function Upsert(pool: Pool, e: Entry): (r: Pool)
    ensures Names(r) == if e.descriptor.name in Names(pool) then Names(pool) else Names(pool) + [e.descriptor.name]
    ensures Lookup(r, e.descriptor.name) == Some(e)
    ensures forall n :: n != e.descriptor.name ==> Lookup(r, n) == Lookup(pool, n)
  {
    if |pool| == 0 then [e]
    else if pool[0].descriptor.name == e.descriptor.name then [e] + pool[1..]
    else [pool[0]] + Upsert(pool[1..], e)
  }

  /** The annotations without the `return` entry, in declaration order. */
  function Params(annotations: seq<(string, PyType)>): (r: seq<(string, PyType)>)
    ensures |r| <= |annotations|
  {
    if |annotations| == 0 then []
    else (if annotations[0].0 == "return" then [] else [annotations[0]]) + Params(annotations[1..])
  }

  function ParamNames(ps: seq<(string, PyType)>): seq<string> {
    if |ps| == 0 then [] else [ps[0].0] + ParamNames(ps[1..])
  }

  function ParamDescription(descriptions: Option<map<string, string>>, param: string): string {
    if descriptions.Some? && param in descriptions.value then descriptions.value[param] else NoDescription
  }

  /** The declarative type table: `str` is "string", `list[T]` is an array of
      `T`'s name (with `str` again read as "string"), anything else keeps its
      name; a bare `list` or a non-list type named "array" has no schema. */
  function SchemaFor(t: PyType): Option<Schema> {
    if TypeName(t) == "list" then
      (match t
       case Simple(_) => None
       case Generic(_, arg) => Some(Array(if TypeName(arg) == "str" then "string" else TypeName(arg))))
    else if TypeName(t) == "array" then None
    else if TypeName(t) == "str" then Some(Scalar("string"))
    else Some(Scalar(TypeName(t)))
  }

  // The decorator works in two passes: first it collects `param_info`
  // (type name, optional items type, description) per parameter, then the
  // dict comprehension turns each into a property.

  datatype ParamInfo = ParamInfo(name: string, typeName: string, items: Option<string>, description: string)

  function InfoFor(name: string, t: PyType, descriptions: Option<map<string, string>>): Result<ParamInfo, RegistrationError> {
    var desc := ParamDescription(descriptions, name);
    if TypeName(t) == "list" then
      (match t
       case Simple(_) => Failure(MissingTypeArguments(name))
       case Generic(_, arg) =>
         Success(ParamInfo(name, "array", Some(if TypeName(arg) == "str" then "string" else TypeName(arg)), desc)))
    else Success(ParamInfo(name, if TypeName(t) == "str" then "string" else TypeName(t), None, desc))
  }

  function Infos(ps: seq<(string, PyType)>, descriptions: Option<map<string, string>>): Result<seq<ParamInfo>, RegistrationError> {
    if |ps| == 0 then Success([])
    else
      var first :- InfoFor(ps[0].0, ps[0].1, descriptions);
      var rest :- Infos(ps[1..], descriptions);
      Success([first] + rest)
  }

  function PropertyOf(info: ParamInfo): Result<Property, RegistrationError> {
    if info.typeName != "array" then Success(Property(info.name, Scalar(info.typeName), info.description))
    else match info.items
      case None => Failure(MissingItems(info.name))
      case Some(it) => Success(Property(info.name, Array(it), info.description))
  }

  function Properties(infos: seq<ParamInfo>): Result<seq<Property>, RegistrationError> {
    if |infos| == 0 then Success([])
    else
      var first :- PropertyOf(infos[0]);
      var rest :- Properties(infos[1..]);
      Success([first] + rest)
  }

  function InfoNames(infos: seq<ParamInfo>): seq<string> {
    if |infos| == 0 then [] else [infos[0].name] + InfoNames(infos[1..])
  }

  /** The descriptor `register_function` stores, or the error it raises. */
  function Describe(name: string, description: Option<string>, annotations: seq<(string, PyType)>,
                    descriptions: Option<map<string, string>>): Result<Descriptor, RegistrationError>
  {
    var infos :- Infos(Params(annotations), descriptions);
    var props :- Properties(infos);
    Success(Descriptor(name, if Truthy(description) then description.value else NoDescription, props, InfoNames(infos)))
  }

  /** One parameter through both passes agrees with the type table. */
  lemma OneParam(name: string, t: PyType, descriptions: Option<map<string, string>>)
    ensures (InfoFor(name, t, descriptions).Success? && PropertyOf(InfoFor(name, t, descriptions).value).Success?)
            <==> SchemaFor(t).Some?
    ensures SchemaFor(t).Some? ==>
              PropertyOf(InfoFor(name, t, descriptions).value).value
              == Property(name, SchemaFor(t).value, ParamDescription(descriptions, name))
  {
  }

  /** Both passes over a parameter list: success exactly when every type is in
      the table, and then one property per parameter, in order. */
  lemma {:induction false} DescribeParams(ps: seq<(string, PyType)>, descriptions: Option<map<string, string>>)
    ensures (Infos(ps, descriptions).Success? && Properties(Infos(ps, descriptions).value).Success?)
            <==> (forall i :: 0 <= i < |ps| ==> SchemaFor(ps[i].1).Some?)
    ensures Infos(ps, descriptions).Success? ==> InfoNames(Infos(ps, descriptions).value) == ParamNames(ps)
    ensures (forall i :: 0 <= i < |ps| ==> SchemaFor(ps[i].1).Some?) ==>
              var props := Properties(Infos(ps, descriptions).value).value;
              |props| == |ps| &&
              forall i :: 0 <= i < |ps| ==>
                props[i] == Property(ps[i].0, SchemaFor(ps[i].1).value, ParamDescription(descriptions, ps[i].0))
  {
    if |ps| > 0 {
      OneParam(ps[0].0, ps[0].1, descriptions);
      DescribeParams(ps[1..], descriptions);
      var inf := Infos(ps, descriptions);
      if inf.Success? {
        var i0 := InfoFor(ps[0].0, ps[0].1, descriptions);
        var irest := Infos(ps[1..], descriptions);
        assert inf.value == [i0.value] + irest.value;
        assert inf.value[1..] == irest.value;
      }
      if forall i :: 0 <= i < |ps| ==> SchemaFor(ps[i].1).Some? {
        assert SchemaFor(ps[0].1).Some?;
        assert forall i :: 0 <= i < |ps[1..]| ==> SchemaFor(ps[1..][i].1).Some? by {
          forall i | 0 <= i < |ps[1..]| ensures SchemaFor(ps[1..][i].1).Some? {
            assert ps[1..][i] == ps[i + 1];
          }
        }
        var props := Properties(inf.value).value;
        var rest := Properties(Infos(ps[1..], descriptions).value).value;
        assert props == [props[0]] + rest;
        forall i | 0 <= i < |ps|
          ensures props[i] == Property(ps[i].0, SchemaFor(ps[i].1).value, ParamDescription(descriptions, ps[i].0))
        {
          if i > 0 {
            assert props[i] == rest[i - 1];
            assert ps[1..][i - 1] == ps[i];
          }
        }
      } else {
        var k :| 0 <= k < |ps| && SchemaFor(ps[k].1).None?;
        if k > 0 {
          assert ps[1..][k - 1] == ps[k];
        }
      }
    }
  }

  lemma {:induction false} ParamsExcludeReturn(annotations: seq<(string, PyType)>)
    ensures "return" !in ParamNames(Params(annotations))
    ensures Unique(AnnotationNames(annotations)) ==> Unique(ParamNames(Params(annotations)))
    ensures forall n :: n in ParamNames(Params(annotations)) <==> n in AnnotationNames(annotations) && n != "return"
  {
    if |annotations| > 0 {
      ParamsExcludeReturn(annotations[1..]);
      var head := if annotations[0].0 == "return" then [] else [annotations[0]];
      ParamNamesAppend(head, Params(annotations[1..]));
      assert AnnotationNames(annotations) == [annotations[0].0] + AnnotationNames(annotations[1..]);
      if Unique(AnnotationNames(annotations)) {
        var an := AnnotationNames(annotations);
        assert Unique(AnnotationNames(annotations[1..])) by {
          forall i, j | 0 <= i < j < |an| - 1
            ensures AnnotationNames(annotations[1..])[i] != AnnotationNames(annotations[1..])[j]
          {
            assert an[i + 1] != an[j + 1];
          }
        }
        assert annotations[0].0 !in AnnotationNames(annotations[1..]) by {
          forall i | 0 <= i < |an| - 1 ensures AnnotationNames(annotations[1..])[i] != annotations[0].0 {
            assert an[0] != an[i + 1];
          }
        }
      }
    }
  }

  lemma {:induction false} ParamNamesAppend(a: seq<(string, PyType)>, b: seq<(string, PyType)>)
    ensures ParamNames(a + b) == ParamNames(a) + ParamNames(b)
  {
    if |a| == 0 {
      assert a + b == b;
    } else {
      assert (a + b)[1..] == a[1..] + b;
      ParamNamesAppend(a[1..], b);
    }
  }

  /** The keys of `__annotations__`, `return` included. */
  function AnnotationNames(annotations: seq<(string, PyType)>): seq<string> {
    if |annotations| == 0 then [] else [annotations[0].0] + AnnotationNames(annotations[1..])
  }

  /** The descriptor built by `register_function`: registration succeeds exactly
      when every parameter type is in the table; `required` lists every declared
      parameter once, in declaration order, never `return`; each property carries
      the table's schema and the given or default description. */
  lemma DescribeSpec(name: string, description: Option<string>, annotations: seq<(string, PyType)>,
                     descriptions: Option<map<string, string>>)
    requires Unique(AnnotationNames(annotations))
    ensures var ps := Params(annotations);
            var r := Describe(name, description, annotations, descriptions);
            && (r.Success? <==> forall i :: 0 <= i < |ps| ==> SchemaFor(ps[i].1).Some?)
            && (r.Success? ==>
                  && r.value.name == name
                  && r.value.description == (if Truthy(description) then description.value else NoDescription)
                  && r.value.required == ParamNames(ps)
                  && "return" !in r.value.required
                  && Unique(r.value.required)
                  && (forall n :: n in r.value.required <==> n in AnnotationNames(annotations) && n != "return")
                  && |r.value.properties| == |ps|
                  && forall i :: 0 <= i < |ps| ==>
                       r.value.properties[i]
                       == Property(ps[i].0, SchemaFor(ps[i].1).value, ParamDescription(descriptions, ps[i].0)))
  {
    DescribeParams(Params(annotations), descriptions);
    ParamsExcludeReturn(annotations);
  }

  /** A descriptor that agrees with the type table, parameter by parameter,
      is exactly the one `register_function` builds. */
  lemma DescribedAs(name: string, description: Option<string>, annotations: seq<(string, PyType)>,
                    descriptions: Option<map<string, string>>, d: Descriptor)
    requires Unique(AnnotationNames(annotations))
    requires var ps := Params(annotations);
             && d.name == name
             && d.description == (if Truthy(description) then description.value else NoDescription)
             && d.required == ParamNames(ps)
             && |d.properties| == |ps|
             && forall i :: 0 <= i < |ps| ==>
                  && SchemaFor(ps[i].1).Some?
                  && d.properties[i] == Property(ps[i].0, SchemaFor(ps[i].1).value, ParamDescription(descriptions, ps[i].0))
    ensures Describe(name, description, annotations, descriptions) == Success(d)
  {
    DescribeSpec(name, description, annotations, descriptions);
    var r := Describe(name, description, annotations, descriptions).value;
    assert r.properties == d.properties;
  }

  /** `register_function(...)(func)`: the pool afterwards maps the function's
      name to the new entry with the followup flag as given, an existing entry
      of that name is overwritten, and every other name is unaffected. */
  function Register(pool: Pool, name: string, description: Option<string>, annotations: seq<(string, PyType)>,
                    descriptions: Option<map<string, string>>, followup: bool, callable: Args -> CallOutcome)
    : (r: Result<Pool, RegistrationError>)
    requires Unique(Names(pool))
    ensures r.Success? <==> Describe(name, description, annotations, descriptions).Success?
    ensures r.Success? ==> Lookup(r.value, name) == Some(Entry(Describe(name, description, annotations, descriptions).value, followup, callable))
    ensures r.Success? ==> forall n :: n != name ==> Lookup(r.value, n) == Lookup(pool, n)
    ensures r.Success? ==> Names(r.value) == (if name in Names(pool) then Names(pool) else Names(pool) + [name])
    ensures r.Success? ==> Unique(Names(r.value))
  {
    var d :- Describe(name, description, annotations, descriptions);
    assert d.name == name;
    var pool' := Upsert(pool, Entry(d, followup, callable));
    assert Unique(Names(pool')) by {
      if name !in Names(pool) {
        var ns := Names(pool) + [name];
        forall i, j | 0 <= i < j < |ns| ensures ns[i] != ns[j] {
          if j == |ns| - 1 {
            assert ns[i] == Names(pool)[i];
          }
        }
      }
    }
    Success(pool')
  }

  /** `call_function_by_name`: a registered name yields `(followup, result)` from
      the stored callable; an unknown name invokes nothing and yields the error
      dict alone. Missing arguments (`func(**None)`) make the call raise. */
  function CallFunctionByName(pool: Pool, name: string, args: Option<Args>): (r: Dispatch)
    ensures r.ErrorDict? <==> name !in Names(pool)
    ensures r.ErrorDict? ==> r.dict == FunctionNotFound
    ensures r.Pair? ==> Lookup(pool, name).Some? &&
                        var e := Lookup(pool, name).value;
                        && e.descriptor.name == name
                        && r.followup == e.followup
                        && r.outcome == (if args.Some? then e.callable(args.value) else Raised)
  {
    LookupFound(pool, name);
    match Lookup(pool, name)
    case None => ErrorDict(FunctionNotFound)
    case Some(e) => Pair(e.followup, if args.Some? then e.callable(args.value) else Raised)
  }

  /** Registering then calling by the same name runs the registered callable
      with the registered followup flag. */
  lemma RegisterThenCall(pool: Pool, name: string, description: Option<string>, annotations: seq<(string, PyType)>,
                         descriptions: Option<map<string, string>>, followup: bool, callable: Args -> CallOutcome,
                         args: Args)
    requires Unique(Names(pool))
    requires Register(pool, name, description, annotations, descriptions, followup, callable).Success?
    ensures CallFunctionByName(Register(pool, name, description, annotations, descriptions, followup, callable).value, name, Some(args))
            == Pair(followup, callable(args))
  {
  }

  /** No registered function asks for a followup call. */
  predicate NoFollowup(pool: Pool) {
    forall i :: 0 <= i < |pool| ==> !pool[i].followup
  }

  /** A pool with distinct names needs no follow-up when no name's lookup does. */
  lemma NoFollowupFromLookups(pool: Pool)
    requires Unique(Names(pool))
    requires forall n :: n in Names(pool) ==> Lookup(pool, n).Some? && !Lookup(pool, n).value.followup
    ensures NoFollowup(pool)
  {
    forall i | 0 <= i < |pool| ensures !pool[i].followup {
      NamesIndex(pool, i);
      LookupFirst(pool, i);
      assert pool[i].descriptor.name in Names(pool);
    }
  }

  lemma {:induction false} NoFollowupLookup(pool: Pool, name: string)
    requires NoFollowup(pool)
    ensures Lookup(pool, name).Some? ==> !Lookup(pool, name).value.followup
  {
    if |pool| > 0 && pool[0].descriptor.name != name {
      NoFollowupLookup(pool[1..], name);
    }
  }

  lemma {:induction false} NamesIndex(pool: Pool, i: int)
    requires 0 <= i < |pool|
    ensures |Names(pool)| == |pool| && Names(pool)[i] == pool[i].descriptor.name
  {
    if i > 0 {
      NamesIndex(pool[1..], i - 1);
    } else {
      NamesLength(pool);
    }
  }

  lemma {:induction false} NamesLength(pool: Pool)
    ensures |Names(pool)| == |pool|
  {
    if |pool| > 0 {
      NamesLength(pool[1..]);
    }
  }

  /** With distinct names, looking up the name at position `i` finds entry `i`. */
  lemma {:induction false} LookupFirst(pool: Pool, i: int)
    requires 0 <= i < |pool| && Unique(Names(pool))
    ensures Lookup(pool, pool[i].descriptor.name) == Some(pool[i])
  {
    NamesIndex(pool, i);
    if i > 0 {
      NamesIndex(pool, 0);
      assert Names(pool)[0] != Names(pool)[i];
      var ns := Names(pool[1..]);
      assert Names(pool) == [pool[0].descriptor.name] + ns;
      assert Unique(ns) by {
        forall a, b | 0 <= a < b < |ns| ensures ns[a] != ns[b] {
          assert Names(pool)[a + 1] != Names(pool)[b + 1];
        }
      }
      LookupFirst(pool[1..], i - 1);
    }
  }
}

=== FILE: LogText.dfy ===
/** The pure text helpers of logger.py: `slice_text`, which cuts a long log
    message into length-bounded pieces and re-wraps fenced code blocks, and
    `Logger.escape_markdown`. */
module LogText {
  import opened Basics
  import opened Escape

  const Fence := "```"
  /** The header every fenced piece is re-opened with. */
  const FenceOpen := "```python\n"
  const DefaultLength := 1990
  /** The characters `escape_markdown` escapes, in the order it replaces them. */
  const MarkdownSpecials := "_*[]()~>#+-=|{}.!"

  // ----------------------------------------------------------------- chunking

  /** `[s[i:i + n] for i in range(0, len(s), n)]`: consecutive non-empty chunks
      of at most `n` characters, all but the last exactly `n`, that concatenate
      back to `s`; none for the empty string. */
  function Chunks(s: string, n: nat): (r: seq<string>)
    requires n > 0
    ensures Flatten(r) == s
    ensures forall i :: 0 <= i < |r| ==> 0 < |r[i]| <= n
    ensures forall i :: 0 <= i < |r| - 1 ==> |r[i]| == n
    decreases |s|
  {
    if |s| == 0 then []
    else if |s| <= n then
      assert [s][1..] == [];
      [s]
    else
      var head := s[..n];
      var rest := Chunks(s[n..], n);
      var r := [head] + rest;
      assert r[1..] == rest;
      assert head + s[n..] == s;
      assert forall i :: 1 <= i < |r| ==> r[i] == rest[i - 1];
      r
  }

  function Wrap(chunk: string): string {
    FenceOpen + chunk + Fence
  }

  /** The inverse of `Wrap` on wrapped pieces. */
  function Unwrap(piece: string): string {
    if |piece| >= |FenceOpen| + |Fence| then piece[|FenceOpen|..|piece| - |Fence|] else piece
  }

  function UnwrapAll(pieces: seq<string>): (r: seq<string>)
    ensures |r| == |pieces|
  {
    if |pieces| == 0 then [] else [Unwrap(pieces[0])] + UnwrapAll(pieces[1..])
  }

  function WrapAll(chunks: seq<string>): (r: seq<string>)
    ensures |r| == |chunks|
    ensures forall i :: 0 <= i < |r| ==> r[i] == Wrap(chunks[i])
  {
    if |chunks| == 0 then [] else [Wrap(chunks[0])] + WrapAll(chunks[1..])
  }

  lemma {:induction false} UnwrapWrapAll(chunks: seq<string>)
    ensures UnwrapAll(WrapAll(chunks)) == chunks
  {
    if |chunks| > 0 {
      var w := Wrap(chunks[0]);
      assert w[|FenceOpen|..|w| - |Fence|] == chunks[0];
      UnwrapWrapAll(chunks[1..]);
    }
  }

  /** The pieces of a fenced block's content: each chunk re-wrapped as a
      python code block; unwrapping them and joining gives the content back. */
  function FencedPieces(content: string, n: nat): (r: seq<string>)
    requires n > 0
    ensures forall i :: 0 <= i < |r| ==>
              && |FenceOpen| + |Fence| < |r[i]| <= n + |FenceOpen| + |Fence|
              && r[i][..|FenceOpen|] == FenceOpen
              && r[i][|r[i]| - |Fence|..] == Fence
    ensures Flatten(UnwrapAll(r)) == content
  {
    var chunks := Chunks(content, n);
    UnwrapWrapAll(chunks);
    WrapAll(chunks)
  }

  // ---------------------------------------------------------------- splitting

  predicate FenceAt(s: string, k: int) {
    OccursAt(s, Fence, k)
  }

  /** The first fence at or after `from`. */
  function FindFence(s: string, from: nat): (r: Option<nat>)
    requires from <= |s|
    ensures r.Some? ==> from <= r.value && r.value + |Fence| <= |s| && FenceAt(s, r.value)
    ensures r.Some? ==> forall k :: from <= k < r.value ==> !FenceAt(s, k)
    ensures r.None? ==> forall k :: from <= k ==> !FenceAt(s, k)
    decreases |s| - from
  {
    if from + |Fence| > |s| then None
    else if s[from..from + |Fence|] == Fence then Some(from)
    else FindFence(s, from + 1)
  }

  /** A block `slice_text` treats as fenced: it starts and ends with a fence. */
  predicate IsFenced(b: string) {
    |b| >= |Fence| && b[..|Fence|] == Fence && b[|b| - |Fence|..] == Fence
  }

  /** `block[3:-3]`; Python yields the empty string when the two fences overlap. */
  function Inner(b: string): string {
    if |b| >= 2 * |Fence| then b[|Fence|..|b| - |Fence|] else ""
  }

  /** `re.split(r'(```.*?```)', s[from:], flags=re.DOTALL)`: text outside and
      inside fenced blocks, alternating. The leftmost match starts at the first
      fence that has a later closing fence, and ends at the nearest such. */
  function SplitFrom(s: string, from: nat): (r: seq<string>)
    requires from <= |s|
    ensures |r| % 2 == 1
    ensures Flatten(r) == s[from..]
    ensures forall k :: 0 <= k < |r| && k % 2 == 1 ==> IsFenced(r[k]) && |r[k]| >= 2 * |Fence|
    decreases |s| - from
  {
    match FindFence(s, from)
    case None => [s[from..]]
    case Some(i) =>
      match FindFence(s, i + |Fence|)
      case None => [s[from..]]
      case Some(j) =>
        var rest := SplitFrom(s, j + |Fence|);
        SplitStep(s, from, i, j, rest);
        [s[from..i], s[i..j + |Fence|]] + rest
  }

  /** One step of the split: the text before a fenced block, the block, and
      the split of the remainder join back to the text. */
  lemma SplitStep(s: string, from: nat, i: nat, j: nat, rest: seq<string>)
    requires from <= i && i + |Fence| <= j && j + |Fence| <= |s|
    requires FenceAt(s, i) && FenceAt(s, j)
    requires |rest| % 2 == 1 && Flatten(rest) == s[j + |Fence|..]
    requires forall k :: 0 <= k < |rest| && k % 2 == 1 ==> IsFenced(rest[k]) && |rest[k]| >= 2 * |Fence|
    ensures var r := [s[from..i], s[i..j + |Fence|]] + rest;
      && |r| % 2 == 1
      && Flatten(r) == s[from..]
      && forall k :: 0 <= k < |r| && k % 2 == 1 ==> IsFenced(r[k]) && |r[k]| >= 2 * |Fence|
  {
    var block := s[i..j + |Fence|];
    var head := [s[from..i], block];
    var r := head + rest;
    FlattenAppend(head, rest);
    assert Flatten(head) == s[from..i] + block by {
      assert head[1..][1..] == [];
    }
    assert s[from..i] + block + s[j + |Fence|..] == s[from..];
    assert IsFenced(block) by {
      assert block[..|Fence|] == s[i..i + |Fence|];
      assert block[|block| - |Fence|..] == s[j..j + |Fence|];
    }
    forall k | 0 <= k < |r| && k % 2 == 1
      ensures IsFenced(r[k]) && |r[k]| >= 2 * |Fence|
    {
      if k >= 2 {
        assert r[k] == rest[k - 2];
      }
    }
  }

  function SplitFences(s: string): seq<string> {
    SplitFrom(s, 0)
  }

  /** Joining the blocks of the split gives the text back. */
  lemma SplitFencesJoin(s: string)
    ensures Flatten(SplitFences(s)) == s
    ensures forall k :: 0 <= k < |SplitFences(s)| && k % 2 == 1 ==> IsFenced(SplitFences(s)[k])
  {
    assert s[0..] == s;
  }

  /** Text without a fence is one block. */
  lemma {:induction false} SplitWithoutFence(s: string)
    requires forall k :: !FenceAt(s, k)
    ensures SplitFences(s) == [s]
  {
    assert s[0..] == s;
  }

  // ------------------------------------------------------------------ slicing

  /** The pieces one block becomes. */
  function BlockPieces(b: string, n: nat): (r: seq<string>)
    requires n > 0
    ensures forall i :: 0 <= i < |r| ==> 0 < |r[i]| <= n + |FenceOpen| + |Fence|
  {
    if IsFenced(b) then FencedPieces(Inner(b), n) else Chunks(b, n)
  }

  function Pieces(blocks: seq<string>, n: nat): (r: seq<string>)
    requires n > 0
    ensures forall i :: 0 <= i < |r| ==> 0 < |r[i]| <= n + |FenceOpen| + |Fence|
  {
    if |blocks| == 0 then []
    else
      var head := BlockPieces(blocks[0], n);
      var rest := Pieces(blocks[1..], n);
      var r := head + rest;
      var bound := n + |FenceOpen| + |Fence|;
      forall i | 0 <= i < |r| ensures 0 < |r[i]| <= bound {
        if i < |head| {
          assert r[i] == head[i];
        } else {
          assert r[i] == rest[i - |head|];
        }
      }
      r
  }

  /** The pieces of each block stay together and in block order. */
  lemma {:induction false} PiecesAppend(a: seq<string>, b: seq<string>, n: nat)
    requires n > 0
    ensures Pieces(a + b, n) == Pieces(a, n) + Pieces(b, n)
  {
    if |a| == 0 {
      assert a + b == b;
    } else {
      assert (a + b)[1..] == a[1..] + b;
      PiecesAppend(a[1..], b, n);
    }
  }

  /** A plain block's pieces join back to the block; a fenced block's pieces,
      unwrapped, join back to its inner content; an empty block gives none. */
  lemma BlockPiecesJoin(b: string, n: nat)
    requires n > 0
    ensures !IsFenced(b) ==> Flatten(BlockPieces(b, n)) == b
    ensures IsFenced(b) ==> Flatten(UnwrapAll(BlockPieces(b, n))) == Inner(b)
    ensures b == "" ==> BlockPieces(b, n) == []
  {
  }

  /** `slice_text(text, length)`: a missing or empty text gives `[""]`; text
      that fits is returned whole; longer text becomes the pieces of its
      blocks, each non-empty and at most `length` plus the re-wrapping; text
      without fences is cut into chunks that join back to it. */
  function SliceText(text: Option<string>, length: nat): (r: seq<string>)
    requires length > 0
    ensures !Truthy(text) ==> r == [""]
    ensures Truthy(text) && |text.value| <= length ==> r == [text.value]
    ensures Truthy(text) && |text.value| > length ==>
              forall i :: 0 <= i < |r| ==> 0 < |r[i]| <= length + |FenceOpen| + |Fence|
    ensures Truthy(text) && (forall k :: !FenceAt(text.value, k)) ==> Flatten(r) == text.value
  {
    if !Truthy(text) then [""]
    else if |text.value| <= length then [text.value]
    else
      var t := text.value;
      var r := Pieces(SplitFences(t), length);
      assert (forall k :: !FenceAt(t, k)) ==> Flatten(r) == t by {
        if forall k :: !FenceAt(t, k) {
          SplitWithoutFence(t);
          assert !IsFenced(t) by {
            assert !FenceAt(t, 0);
          }
          assert [t][1..] == [];
          assert r == BlockPieces(t, length) + Pieces([], length);
          assert r == Chunks(t, length);
        }
      }
      r
  }

  // -------------------------------------------------------- escape_markdown

  lemma SpecialsWellFormed()
    ensures Distinct(MarkdownSpecials) && Backslash !in MarkdownSpecials
  {
    var a, b, c := "_*[]()", "~>#+-=", "|{}.!";
    assert Distinct(a);
    assert Distinct(b);
    assert Distinct(c);
    DistinctConcat(a, b);
    DistinctConcat(a + b, c);
    assert MarkdownSpecials == a + b + c;
  }

  /** `Logger.escape_markdown`: a backslash before every one of the 17 listed
      characters and every other character unchanged, so the output is longer
      by the number of listed characters in the input. */
  function EscapeMarkdown(text: string): (r: string)
    ensures r == EscapeOnce(text, CharSet(MarkdownSpecials))
    ensures |r| == |text| + CountIn(text, CharSet(MarkdownSpecials))
    ensures Unescape(r, CharSet(MarkdownSpecials)) == text
  {
    SpecialsWellFormed();
    UnescapeInverse(text, CharSet(MarkdownSpecials));
    EscapeSeqIsSinglePass(text, MarkdownSpecials);
    EscapeLength(text, CharSet(MarkdownSpecials));
    EscapeSeq(text, MarkdownSpecials)
  }
}
